=== FILE: README.md ===
# github-issue-grid in Dafny

A model of the pure core of `github-issue-grid`, a small Rust workspace. It
has two tools:

- `issue-grid` shows a repository's GitHub issues grouped into bins by regex.
- `github-issues-export` exports issues to markdown files.

The modelled core:

- **Binning and sorting by pattern list** (`PatternSort`, sort.rs).
  - `PatternList::bin` sweeps the input once per pattern.
  - It either takes each matching element out of the pool or clones it.
  - What is never taken is the overflow.
  - `PatternList::sort` flattens the bins and then appends the overflow.
  - The regex test `RegexMatch::is_match` is a parameter `isMatch` and may be any predicate.
- **The list form of `IssueSortInstr`** (`SerdeList`). This is the `serde_as_list!` instance `field regex; option_tail order;`, as a serialiser/parser pair over `seq<string>`.
- **Configuration lifting** (`CfgParse`, cfg_parse.rs).
  - `user/repo` parsing.
  - All-or-nothing lifting over `Vec` and `Option`.
  - `IssueSortInstr` becomes `FilterSort`.
  - `OrganizeInstr` keeps its variant.
  - The whole `ConfigFile` becomes a `Config`.
  - Regex compilation is a parameter `compile: string -> Option<R>`.
  - The environment lookup is a parameter `env`.
- **The export query** `username/repo[#issue_number]` (`Query`). This is the string logic of `parse_args`, with rejection returned as a value instead of a process exit.
- **Export strings** (`Export`):
  - the GitHub endpoints;
  - `IssueState` names;
  - the zero-padded file names `{:03}-{slug}.md`, with `slug::slugify` as a parameter.
- **View-model conversion** (`Remodel`, `GithubRemodel`). These are the `FromGithub` impls and their `remodel!` twins. They are proved to agree.

Shared helpers:

- `Wrappers`: `Option` and `Result`.
- `Text`, Rust's string primitives as the code uses them:
  - `str::split` on a character, and joining the pieces;
  - decimal formatting and `{:0w}` padding;
  - `str::parse::<usize>` with a 64-bit `usize`.

## Model

| member | source | states |
|---|---|---|
| `PatternSort.Bin` | issue-grid/src/sort.rs:15-44 | There is one bin per pattern, in pattern order. Every element of bin `i` is an input element that matches pattern `i`. The overflow holds only input elements. |
| `PatternSort.PresentPool` | issue-grid/src/sort.rs:20-38 | Wrapping every element in `Some` and then keeping the `Some` values gives back the input, in order. |
| `PatternSort.SweepPattern` | issue-grid/src/sort.rs:22-34 | One pattern's pass over the pool keeps one slot per input slot. What the pass collects and leaves behind is stated by `SweepPatternBin`, `SweepPatternTakes` and `SweepPatternClones`. |
| `PatternSort.SweepAll` | issue-grid/src/sort.rs:21-35 | The passes give one bin per pattern and keep the pool's slot count. `SweepAllClaims`, `SweepAllLeaves` and `SweepAllClones` (used by `BinClaims` and `BinClones`) state what each bin holds and what is left. |
| `PatternSort.SweepPatternBin` | issue-grid/src/sort.rs:22-34 | One pattern's pass collects, in input order, exactly the elements still in the pool that match it. |
| `PatternSort.SweepPatternTakes` | issue-grid/src/sort.rs:29 | A pass with `duplicate == true` leaves in the pool exactly the elements that did not match, in order. |
| `PatternSort.SweepPatternClones` | issue-grid/src/sort.rs:30 | A pass with `duplicate == false` leaves every slot as it was. |
| `PatternSort.BinClones` | issue-grid/src/sort.rs:28-38 | With `duplicate == false`, bin `i` is the input filtered by pattern `i`, whatever the other patterns are. The overflow is the entire input, unchanged. |
| `PatternSort.BinClaims` | issue-grid/src/sort.rs:24-38 | With `duplicate == true`, bin `i` is the input elements whose first matching pattern is `i`, in input order. The overflow is the elements matching no pattern, in input order. |
| `PatternSort.FirstMatchWins` | issue-grid/src/sort.rs:24-29 | With `duplicate == true`, an element is in bin `i` iff it is an input element that matches pattern `i` and no earlier pattern. It is never in two bins. It is in the overflow iff it matches no pattern. |
| `PatternSort.BinClaimsIsStableSort` | issue-grid/src/sort.rs:20-38 | With `duplicate == true`, the bins followed by the overflow equal the input stably sorted by rank, and are a permutation of it. The rank is the index of the first matching pattern, with unmatched elements last. |
| `PatternSort.SortByRankSorted` | issue-grid/src/sort.rs:21-35 | The reference order used above is non-decreasing in rank, so the claimed bins appear in pattern order. |
| `PatternSort.SortByRankStable` | issue-grid/src/sort.rs:22-34 | Within each rank, the reference order keeps the input order, so each bin preserves the relative order of its elements. |
| `PatternSort.Sort` | issue-grid/src/sort.rs:46-62 | `sort` as written returns every pattern's full match list, then the whole input. Its length is the input length plus the number of matching (element, pattern) pairs. |
| `PatternSort.SortLength` | issue-grid/src/sort.rs:56-59 | The result length equals the capacity `sort` reserves: the sum of the bin lengths plus the overflow length. |
| `PatternSort.SortRepeatsMatches` | issue-grid/src/sort.rs:54 | Counterexample: for any pattern `p` and element `x` that matches it, `sort` on the input `[x]` returns `[x, x]`, while the claiming sort returns `[x]`. |
| `PatternSort.SortClaimed` | issue-grid/src/sort.rs:46-62 | `sort` with `bin(elems, true)` is the stable sort of the input by rank, and a permutation of the input. |
| `SerdeList.Encode` | issue-grid/src/serde_util.rs:56-95 | The list starts with `regex`, followed by the elements of `order` when it is `Some`, and nothing else. |
| `SerdeList.Decode` | issue-grid/src/serde_util.rs:99-181 | Decoding fails exactly on the empty list, with the error `IssueSortInstr.regex`. Otherwise `regex` is the first element and the tail holds the rest. Decoding never produces `Some([])`. |
| `SerdeList.EmptyTailsCollide` | issue-grid/src/main.rs:164-168 | `order = None` and `order = Some([])` both encode to the one-element list `[regex]`. |
| `SerdeList.DecodeEmpty` | issue-grid/src/main.rs:198-203 | Example, an instance of `Decode`'s contract: an empty list fails with `IssueSortInstr.regex`, as the test expects. |
| `SerdeList.DecodeTail` | issue-grid/src/main.rs:231-238 | The decoded tail is `None` when only `regex` is present, and `Some(rest)` otherwise. |
| `SerdeList.DecodeEncode` | issue-grid/src/serde_util.rs:78-152 | `decode(encode(x)) == x` whenever `x.order` is not `Some([])`. |
| `SerdeList.RoundTripIff` | issue-grid/src/main.rs:164-283 | The round trip `decode(encode(x)) == x` holds if and only if `x.order != Some([])`. |
| `SerdeList.EncodeDecode` | issue-grid/src/serde_util.rs:112-152 | Every non-empty list decodes and re-encodes to itself. |
| `CfgParse.ParseRepoLocation` | issue-grid/src/cfg_parse.rs:100-111 | Parsing succeeds iff the string holds exactly one `/`. The two sides, which may be empty, rejoin with `/` to give the input and hold no `/`. |
| `CfgParse.ParseFormatRepoLocation` | issue-grid/src/cfg_parse.rs:102-104 | Any `user`/`repo` pair without `/` survives being written as `user/repo` and parsed back. |
| `CfgParse.RepoLocationEdges` | issue-grid/src/cfg_parse.rs:103-108 | Examples, instances of `ParseRepoLocation`'s contract: `/` parses to two empty sides, and `a/b/c` and `ab` are rejected. |
| `CfgParse.ParseRegex` | issue-grid/src/cfg_parse.rs:113-120 | A regex parses exactly when the engine compiles it, to what it compiles to. |
| `CfgParse.ParseVec` | issue-grid/src/cfg_parse.rs:69-77 | Lifting over a `Vec` succeeds iff every element parses. The result has the same length, with each element converted in place. |
| `CfgParse.ParseVecAppend` | issue-grid/src/cfg_parse.rs:72-75 | Lifting a concatenation succeeds iff both halves do, and gives the concatenation of their results. |
| `CfgParse.ParseOption` | issue-grid/src/cfg_parse.rs:79-86 | `None` lifts to `Ok(None)`. `Some(x)` lifts to `Some` of `x`'s conversion, or fails when that fails. |
| `CfgParse.ParseFilterSort` | issue-grid/src/cfg_parse.rs:122-129 | Fails iff `regex` or some `order` entry does not compile. On success, `sorter` is `None` exactly when `order` was, and otherwise holds every compiled entry, in order. |
| `CfgParse.ParseOrganizeInstr` | issue-grid/src/cfg_parse.rs:131-140 | `Bin` stays `Bin` and `Sort` stays `Sort`. Only the payload is converted, and conversion fails exactly when the payload's does. |
| `CfgParse.ParseConfigFile` | issue-grid/src/cfg_parse.rs:142-155 | Succeeds iff the token variable is set, the repository has exactly one `/`, and every instruction parses. The token, location and instructions come from those parts, in order. |
| `CfgParse.DecodeThenParse` | issue-grid/src/cfg_parse.rs:122-129 | Reading an instruction from its list form and lifting it fails iff some list element does not compile. The first element becomes the filter. The rest, if any, become the sort patterns. |
| `Query.ParseQuery` | github-issues-export/src/main.rs:137-160 | Fails unless the query has exactly one `/`. The user name is the text before it. With no `#`, the repository is the rest. With one `#`, the text after it must parse as a `usize`. Every rejection carries the query. |
| `Query.ParseRepoPart` | github-issues-export/src/main.rs:144-159 | The text after the `/` splits on `#`. One piece is the repository. Two pieces are the repository and a `usize` that must parse. More pieces are rejected, and every rejection carries the whole query. An accepted repository holds neither `/` nor `#`. |
| `Query.ParseRepoOnly` | github-issues-export/src/main.rs:144-146 | `user/repo` with no `#` yields that repository and no issue number. |
| `Query.ParseWithIssue` | github-issues-export-lib/src/lib.rs:299-314 | `user/repo#t` is accepted exactly when `t` parses as a `usize`. An empty or malformed `t`, or a second `#`, is rejected. |
| `Query.SecondHashRejected` | github-issues-export-lib/src/lib.rs:311-314 | A second `#` yields three or more pieces, which is rejected. |
| `Query.ParseFormatQuery` | github-issues-export-lib/src/lib.rs:292-315 | Every well-formed query survives being written as `user/repo[#n]` and parsed back. |
| `Query.NonCanonicalIssue` | github-issues-export/src/main.rs:149-150 | The number may carry a leading `+` or leading zeros: `u/r#+07` gives issue 7. |
| `Text.ParseUsize` | github-issues-export/src/main.rs:149-150 | `str::parse::<usize>` succeeds iff the text is an optional leading `+` followed by at least one ASCII digit, and the digits' value is at most 2^64 - 1. The result is that value, so the empty text and a bare `+` fail. `ParseDecimal` and `NonCanonicalIssue` pin it from both sides. |
| `Text.ParseUsizeShape` | github-issues-export/src/main.rs:149-150 | Consequences of `ParseUsize`'s contract: the empty text fails, an accepted value is at most 2^64 - 1, and every character of an accepted text is a digit, except for a leading `+`. |
| `Text.ParseDecimal` | github-issues-export/src/main.rs:149-150 | Every `usize` written in decimal parses back to itself. |
| `Text.SplitPieces` | github-issues-export/src/main.rs:138-144 | `split` on a character gives one more piece than there are occurrences of it, and no piece holds the separator. |
| `Export.ToStr` | github-issues-export-lib/src/lib.rs:177-185 | Each state's name is a word of at least three lower-case ASCII letters, so it ends in a letter and holds no `/`. `ToStrInjective` shows the names are pairwise different. The contract does not pin the exact strings `open`, `closed` and `all` that GitHub's `state` parameter expects; only the definition does. |
| `Export.IssueEndpoint` | github-issues-export-lib/src/lib.rs:137-150 | The single-issue URL lies below `{GITHUB_API_ENDPOINT}/repos/`, ends with `/issues/` and the decimal number, and so ends in a digit. `IssueEndpointPath` states its full path, and `IssueEndpointNames` that the number reads back. |
| `Export.IssueEndpointPath` | github-issues-export-lib/src/lib.rs:143-149 | For any owner and repository, the path below the `/repos` root is the owner, `/`, the repository, `/issues/` and the decimal number, with nothing else. |
| `Export.IssuesEndpoint` | github-issues-export-lib/src/lib.rs:153-166 | The all-issues URL lies below `{GITHUB_API_ENDPOINT}/repos/`, ends with `/issues?state=` and the state's name, and so ends in a non-digit. `IssuesEndpointPath` states its full path, and `IssuesEndpointInjective` that different states give different URLs. |
| `Export.IssuesEndpointPath` | github-issues-export-lib/src/lib.rs:159-165 | For any owner and repository, the path below the `/repos` root is the owner, `/`, the repository, `/issues?state=` and the state's name, with nothing else. |
| `Export.RequestEndpoint` | github-issues-export-lib/src/lib.rs:326-333 | The requested URL lies below `{GITHUB_API_ENDPOINT}/repos/`. A query with an issue requests `/issues/` and that number. A query without one requests `/issues?state=` and the name of the chosen state. The URL ends in a digit iff the query names an issue. `RequestNamesQuery` states which repository it names. |
| `Export.ToStrInjective` | github-issues-export-lib/src/lib.rs:177-191 | Different issue states have different names. The model uses the same function for `Display` (see "## Left out"). |
| `Export.IssueEndpointNames` | github-issues-export-lib/src/lib.rs:137-150 | Below the `/repos` root, the single-issue URL's path is exactly owner, repository, `issues` and the decimal number. The number reads back from the last segment. |
| `Export.IssuesEndpointNames` | github-issues-export-lib/src/lib.rs:153-166 | Below the `/repos` root, the all-issues URL's path is exactly owner, repository, and `issues?state=` followed by the state's name. |
| `Export.IssuesEndpointInjective` | github-issues-export-lib/src/lib.rs:159-165 | For one repository, different states give different all-issues URLs. |
| `Export.EndpointsDistinct` | github-issues-export-lib/src/lib.rs:143-165 | A single-issue URL never equals an all-issues URL: one ends in a digit, the other in a letter. |
| `Export.RequestNamesQuery` | github-issues-export-lib/src/lib.rs:322-333 | For a well-formed query, the requested URL's path is the query's user and repository, then `issues` and the issue number when there is one, or else `issues?state=` and the chosen state's name. |
| `Export.SuggestedPath` | github-issues-export-lib/src/render.rs:37-41 | The suggested path is the zero-padded number, `-`, the slugified title and `.md`, with nothing else. Each part reads back from its position, so a title that was not slugified does not meet the contract. |
| `Export.SuggestedPathNumber` | github-issues-export-lib/src/render.rs:38-39 | The leading digit run is the number padded to three digits and never truncated: exactly 3 digits below 1000, the full decimal form from 1000 up. Reading the run gives the number back. |
| `Export.LeadingDigits` | github-issues-export-lib/src/render.rs:38 | The longest all-digit prefix: a prefix of the input, all digits, followed by a non-digit or the end. |
| `Export.IssueToFilename` | github-issues-export-lib/src/lib.rs:216-223 | The file name is `path`, then `/`, then the suggested `{:03}-{slug}.md` name. |
| `Export.FilenameLastSegment` | github-issues-export-lib/src/lib.rs:217-222 | When the slug holds no `/`, the last `/`-separated segment of the file name is the suggested name. |
| `Remodel.VecFromGh` | issue-grid/src/remodel.rs:11-15 | The `Vec` conversion keeps the length and converts each element in place. |
| `Remodel.VecFromGhAppend` | issue-grid/src/remodel.rs:13 | Converting a concatenation converts each part. |
| `Remodel.ColorFromGh` | issue-grid/src/remodel.rs:29-33 | The CSS color is one character longer than the GitHub color: `#`, then the GitHub color. `ColorRoundTrip` and `ColorFromGhInjective` show nothing is lost. |
| `Remodel.UserFromGh` | issue-grid/src/remodel.rs:35-44 | The id is copied, and login, avatar_url and html_url become name, icon_url and hyperlink. `UserRoundTrip` inverts it. |
| `Remodel.LabelFromGh` | issue-grid/src/remodel.rs:46-53 | The name is copied and the color gains its `#`. `LabelRoundTrip` inverts it. |
| `Remodel.IssueSummaryFromGh` | issue-grid/src/remodel.rs:55-63 | The id, html_url and title are copied, and the labels are converted one by one, in place. `IssueSummaryRoundTrip` shows no field the summary reads is lost. |
| `Remodel.ColorRoundTrip` | issue-grid/src/remodel.rs:29-33 | The CSS color is `#` followed by the GitHub color, and stripping the `#` gives the GitHub color back. |
| `Remodel.ColorFromGhInjective` | issue-grid/src/remodel.rs:31 | Different GitHub colors give different CSS colors. |
| `Remodel.UserRoundTrip` | issue-grid/src/remodel.rs:35-44 | The user conversion is a bijection: the id is copied, and login, avatar_url and html_url become name, icon_url and hyperlink. No field is lost or swapped. |
| `Remodel.LabelRoundTrip` | issue-grid/src/remodel.rs:46-53 | The label conversion keeps the name and converts the color, losing nothing. |
| `Remodel.IssueSummaryRoundTrip` | issue-grid/src/remodel.rs:57-62 | Summarising loses none of the issue fields the summary reads. |
| `GithubRemodel.ConvColor` | issue-grid/src/remodel/github.rs:10-12 | `#` followed by the GitHub color, equal to `Remodel.ColorFromGh` on every input. |
| `GithubRemodel.ConvUser` | issue-grid/src/remodel/github.rs:14-21 | The field-by-field user copy, equal to `Remodel.UserFromGh` on every input. |
| `GithubRemodel.ConvLabel` | issue-grid/src/remodel/github.rs:23-28 | The name is copied and the color converted, equal to `Remodel.LabelFromGh` on every input. |
| `GithubRemodel.ConvLabels` | issue-grid/src/remodel/github.rs:35 | `conv(from.labels)` converts element by element, equal to the `FromGithub` `Vec` conversion of labels. |
| `GithubRemodel.ConvIssue` | issue-grid/src/remodel/github.rs:30-37 | The issue summary copy, equal to `Remodel.IssueSummaryFromGh` on every input. |
| `GithubRemodel.AgreesWithFromGithub` | issue-grid/src/remodel/github.rs:10-37 | The four `remodel!` conversions (color, user, label, issue) equal the `FromGithub` ones on every input. |

## Left out

- Network, async and HTTP are not modelled. This covers `Github::new`, `from_auth` and `get`, futures, the tokio core and `Repo::fetch`. Only the endpoint strings are modelled.
- Concurrency is not modelled: `RepoMutex` and `RwLock`.
- The Rocket HTTP server is not modelled.
- Process control is not modelled: Docopt, `process::exit` and printing. A rejected query is the value `Err(WrongArgument(query))` instead of an exit.
- `GithubAuth::from_env` is the parameter `env`. The `GITHUB_TOKEN` read in `parse_args` is left out.
- The regex engine is not modelled. Matching is the parameter `isMatch`; compilation is the parameter `compile`. No property depends on what a regex means.
- `slug::slugify` is the parameter `slugify`. `FilenameLastSegment` assumes only that its output holds no `/`.
- Handlebars rendering is not modelled, nor is the markdown half of `render_md`.
- serde_yaml, serde_json and the generic serde plumbing inside `serde_as_list!` are reduced to their sequence semantics. Errors a deserialiser raises for a badly typed element are left out.
- File-system access is not modelled: `mkdir`, `save_issue`, `File::create`, `read_config`.
- The blanket `CfgParse` impl (issue-grid/src/cfg_parse.rs:92-96) only forwards `x.cfg_parse()` to the target type's `parse_cfg(x)`. The model calls each target's parse function directly, so the delegation is the identity and has no separate member.
- The diagnostic text each failed conversion prints is left out. All failures are `Err(())`, as in the source.
- `usize` is taken to be 64 bits wide (`Text.UsizeMax`), the width of the targets the tools are built for.
- The `u64` ids are unbounded `nat`s. The conversions only copy them.
- `sort::FilterSort` and `sort::OrganizeInstr` are not defined in sort.rs. `CfgParse` defines them as the plain datatypes that cfg_parse.rs constructs. `RepoLocation` is imported from `github_issues_export_lib`, but lib.rs does not define it either. `CfgParse.RepoLocation` takes it to be a plain (user, repo) record, the two arguments of `RepoLocation::new`.
- issue-grid/src/remodel/github.rs converts labels with `conv(from.labels)`. That relies on a `Vec` conversion that neither remodel.rs nor remodel/github.rs defines, so `GithubRemodel.ConvLabels` takes it to convert element by element.
- issue-grid/src/config.rs is not part of this model: a second `Config` whose `FromStr` delegates to YAML and an unseen `Conv`. The same goes for remodel/mod.rs and remodel_macro.rs (type-level plumbing), model.rs and remodel/config.rs (bare declarations), and repo.rs.
- `PatternList::bin`'s only real caller (issue-grid/src/repo.rs:41) binds with `true`. That is the evidence for which mode `sort` intends.
- The grid has no recursive organize-scope engine and no duplicate-bin diagnostics in the code, so none are modelled.
- `IssueState`'s `Display` writes `to_str` unchanged, so the model uses `ToStr` for both.
- Export.ToStr: its contract says the names are distinct lower-case words. It does not list the three literal strings, which would only repeat the definition; the literals appear in the definition itself.

## Findings

| source | as written | input that shows it | evidently intended | confidence | as-written member | corrected member |
|---|---|---|---|---|---|---|
| issue-grid/src/sort.rs:54 | `sort` bins with `bin(elems, false)`, the cloning mode. Every matched element therefore appears once per matching pattern, and again in the overflow, which is the whole input. | patterns `[p]`, input `[x]` with `x` matching `p`: the result is `[x, x]` | a stable sort of the input by first matching pattern, each element exactly once (`bin(elems, true)`, the mode the only caller of `bin` uses) | not executed | `PatternSort.SortRepeatsMatches` | `PatternSort.SortClaimed` |

=== FILE: cfg_parse.dfy ===
/**
 * Lifting the deserialised configuration file into the server's typed
 * configuration (issue-grid/src/cfg_parse.rs).
 *
 * Every conversion returns `Result<_, ()>`: the source prints a diagnostic
 * and returns `Err(())`, so all failures are alike. Regex compilation is the
 * parameter `compile` (`None` for a pattern the regex engine rejects) and the
 * environment lookup behind `GithubAuth::from_env` is the parameter `env`.
 * The blanket `CfgParse` impl only forwards `x.cfg_parse()` to the target
 * type's `parse_cfg(x)`, so each call site below calls the target's parse
 * function directly.
 */
module CfgParse {
  import opened Wrappers
  import opened Text
  import SerdeList

  /** `RepoLocation`: a repository in `user/repo` notation. */
  datatype RepoLocation = RepoLocation(user: string, repo: string)

  /** `sort::FilterSort`: a compiled filter and an optional list of compiled sort patterns. */
  datatype FilterSort<R> = FilterSort(filter: R, sorter: Option<seq<R>>)

  /** `sort::OrganizeInstr`. */
  datatype OrganizeInstr<R> = Bin(inner: FilterSort<R>) | Sort(inner: FilterSort<R>)

  /** `cfg_model::OrganizeInstr`, as read from the file. */
  datatype CfgOrganizeInstr =
    | CfgBin(instr: SerdeList.IssueSortInstr)
    | CfgSort(instr: SerdeList.IssueSortInstr)

  /** `cfg_model::ConfigFile`. */
  datatype ConfigFile = ConfigFile(authVar: string, repo: string, organize: seq<CfgOrganizeInstr>)

  /** `GithubAuth`: the token read from the environment. */
  datatype GithubAuth = GithubAuth(token: string)

  /** The server's `Config`. */
  datatype Config<R> = Config(auth: GithubAuth, repo: RepoLocation, organize: seq<OrganizeInstr<R>>)

  /** `RepoLocation` written back in `user/repo` notation. */
  function FormatRepoLocation(loc: RepoLocation): string {
    loc.user + "/" + loc.repo
  }

  /**
   * `ParseCfg<S> for RepoLocation`: split on `/` and accept exactly two
   * pieces. Either piece may be empty.
   */
  function ParseRepoLocation(s: string): (r: Result<RepoLocation, ()>)
    ensures r.Ok? <==> Count(s, '/') == 1
    ensures r.Ok? ==> FormatRepoLocation(r.value) == s
    ensures r.Ok? ==> '/' !in r.value.user && '/' !in r.value.repo
  {
    var parts := Split(s, '/');
    SplitPieces(s, '/');
    if |parts| == 2 then
      assert Join(parts, '/') == s by { JoinSplit(s, '/'); }
      assert Join(parts, '/') == parts[0] + "/" + parts[1] by {
        assert parts[1..] == [parts[1]];
      }
      Ok(RepoLocation(parts[0], parts[1]))
    else
      Err(())
  }

  /** Formatting a location whose parts hold no `/` and parsing it back is the identity. */
  lemma ParseFormatRepoLocation(loc: RepoLocation)
    requires '/' !in loc.user && '/' !in loc.repo
    ensures ParseRepoLocation(FormatRepoLocation(loc)) == Ok(loc)
  {
    var parts := [loc.user, loc.repo];
    assert Join(parts, '/') == FormatRepoLocation(loc);
    SplitJoin(parts, '/');
  }

  /** Both sides of the `/` may be empty, and a second `/` is rejected. */
  lemma RepoLocationEdges()
    ensures ParseRepoLocation("/") == Ok(RepoLocation("", ""))
    ensures ParseRepoLocation("a/b/c").Err?
    ensures ParseRepoLocation("ab").Err?
  {
    ParseFormatRepoLocation(RepoLocation("", ""));
    assert FormatRepoLocation(RepoLocation("", "")) == "/";
    assert Count("a/b/c", '/') == 2 by {
      assert "a/b/c" == "a/b" + "/c";
      CountAppend("a/b", "/c", '/');
      assert "a/b" == "a" + "/b";
      CountAppend("a", "/b", '/');
    }
  }

  /** `ParseCfg<S> for Regex`: whatever the regex engine decides. */
  function ParseRegex<R>(s: string, compile: string -> Option<R>): (r: Result<R, ()>)
    ensures r.Ok? <==> compile(s).Some?
    ensures r.Ok? ==> r.value == compile(s).value
  {
    match compile(s)
    case None => Err(())
    case Some(re) => Ok(re)
  }

  /**
   * `ParseCfg<Vec<A>> for Vec<B>`: convert the elements in order, stopping
   * at the first failure.
   */
  function ParseVec<A, B>(xs: seq<A>, parse: A -> Result<B, ()>): (r: Result<seq<B>, ()>)
    ensures r.Ok? <==> forall i :: 0 <= i < |xs| ==> parse(xs[i]).Ok?
    ensures r.Ok? ==> |r.value| == |xs|
    ensures r.Ok? ==> forall i :: 0 <= i < |xs| ==> parse(xs[i]).Ok? && r.value[i] == parse(xs[i]).value
  {
    if |xs| == 0 then Ok([])
    else
      match parse(xs[0])
      case Err(e) => Err(e)
      case Ok(b) =>
        match ParseVec(xs[1..], parse)
        case Err(e) => Err(e)
        case Ok(rest) =>
          assert forall i :: 1 <= i < |xs| ==> xs[i] == xs[1..][i - 1];
          Ok([b] + rest)
  }

  /** Lifting over a concatenation succeeds exactly when it succeeds on both halves. */
  lemma {:induction false} ParseVecAppend<A, B>(xs: seq<A>, ys: seq<A>, parse: A -> Result<B, ()>)
    ensures ParseVec(xs + ys, parse).Ok? <==> ParseVec(xs, parse).Ok? && ParseVec(ys, parse).Ok?
    ensures ParseVec(xs + ys, parse).Ok? ==>
              ParseVec(xs + ys, parse).value == ParseVec(xs, parse).value + ParseVec(ys, parse).value
  {
    if |xs| == 0 {
      assert xs + ys == ys;
    } else {
      var zs := xs + ys;
      assert zs[0] == xs[0];
      assert zs[1..] == xs[1..] + ys;
      ParseVecAppend(xs[1..], ys, parse);
      match parse(xs[0])
      case Err(_) =>
      case Ok(b) =>
        if ParseVec(zs[1..], parse).Ok? {
          var p, q := ParseVec(xs[1..], parse).value, ParseVec(ys, parse).value;
          assert ParseVec(zs, parse).value == [b] + (p + q);
          assert ParseVec(xs, parse).value == [b] + p;
          ConcatAssoc([b], p, q);
        }
    }
  }

  /** `ParseCfg<Option<A>> for Option<B>`: `None` stays `None`, `Some` converts its payload. */
  function ParseOption<A, B>(o: Option<A>, parse: A -> Result<B, ()>): (r: Result<Option<B>, ()>)
    ensures o.None? ==> r == Ok(None)
    ensures o.Some? ==> (r.Ok? <==> parse(o.value).Ok?)
    ensures o.Some? && r.Ok? ==> r.value == Some(parse(o.value).value)
  {
    match o
    case None => Ok(None)
    case Some(inner) =>
      match parse(inner)
      case Err(e) => Err(e)
      case Ok(b) => Ok(Some(b))
  }

  /** Every pattern in a list compiles. */
  predicate AllCompile<R>(xs: seq<string>, compile: string -> Option<R>) {
    forall i :: 0 <= i < |xs| ==> compile(xs[i]).Some?
  }

  /** The list of compiled patterns, once every one of them compiles. */
  function CompileAll<R>(xs: seq<string>, compile: string -> Option<R>): (r: seq<R>)
    requires AllCompile(xs, compile)
    ensures |r| == |xs| && forall i :: 0 <= i < |xs| ==> r[i] == compile(xs[i]).value
  {
    seq(|xs|, i requires 0 <= i < |xs| => compile(xs[i]).value)
  }

  /** `ParseCfg<IssueSortInstr> for FilterSort`: compile `regex`, then every `order` entry. */
  function ParseFilterSort<R>(x: SerdeList.IssueSortInstr, compile: string -> Option<R>): (r: Result<FilterSort<R>, ()>)
    ensures r.Ok? <==> compile(x.regex).Some? && (x.order.Some? ==> AllCompile(x.order.value, compile))
    ensures r.Ok? ==> r.value.filter == compile(x.regex).value
    ensures r.Ok? ==> (r.value.sorter.None? <==> x.order.None?)
    ensures r.Ok? && x.order.Some? ==> r.value.sorter == Some(CompileAll(x.order.value, compile))
  {
    match ParseRegex(x.regex, compile)
    case Err(e) => Err(e)
    case Ok(filter) =>
      match ParseOption(x.order, (v: seq<string>) => ParseVec(v, (s: string) => ParseRegex(s, compile)))
      case Err(e) => Err(e)
      case Ok(sorter) =>
        assert x.order.Some? ==> sorter.value == CompileAll(x.order.value, compile);
        Ok(FilterSort(filter, sorter))
  }

  /** `ParseCfg<cfg_model::OrganizeInstr> for OrganizeInstr`: same variant, converted payload. */
  function ParseOrganizeInstr<R>(x: CfgOrganizeInstr, compile: string -> Option<R>): (r: Result<OrganizeInstr<R>, ()>)
    ensures r.Ok? <==> ParseFilterSort(x.instr, compile).Ok?
    ensures r.Ok? ==> (r.value.Bin? <==> x.CfgBin?)
    ensures r.Ok? ==> r.value.inner == ParseFilterSort(x.instr, compile).value
  {
    match x
    case CfgBin(inner) =>
      (match ParseFilterSort(inner, compile)
       case Err(e) => Err(e)
       case Ok(fs) => Ok(Bin(fs)))
    case CfgSort(inner) =>
      (match ParseFilterSort(inner, compile)
       case Err(e) => Err(e)
       case Ok(fs) => Ok(Sort(fs)))
  }

  /**
   * `ParseCfg<ConfigFile> for Config`: read the token from the environment
   * variable named by `auth_var`, then parse the repository location and
   * every organize instruction.
   */
  function ParseConfigFile<R>(x: ConfigFile, env: string -> Option<string>, compile: string -> Option<R>): (r: Result<Config<R>, ()>)
    ensures r.Ok? <==>
              env(x.authVar).Some? && Count(x.repo, '/') == 1 &&
              forall i :: 0 <= i < |x.organize| ==> ParseOrganizeInstr(x.organize[i], compile).Ok?
    ensures r.Ok? ==> r.value.auth == GithubAuth(env(x.authVar).value)
    ensures r.Ok? ==> FormatRepoLocation(r.value.repo) == x.repo
    ensures r.Ok? ==> |r.value.organize| == |x.organize|
    ensures r.Ok? ==> forall i :: 0 <= i < |x.organize| ==>
              r.value.organize[i] == ParseOrganizeInstr(x.organize[i], compile).value
  {
    match env(x.authVar)
    case None => Err(())
    case Some(token) =>
      match ParseRepoLocation(x.repo)
      case Err(e) => Err(e)
      case Ok(repo) =>
        match ParseVec(x.organize, (o: CfgOrganizeInstr) => ParseOrganizeInstr(o, compile))
        case Err(e) => Err(e)
        case Ok(organize) => Ok(Config(GithubAuth(token), repo, organize))
  }

  /**
   * Reading an instruction from its list form and lifting it: it fails
   * exactly when some element of the list does not compile; the first
   * element becomes the filter and the rest, if any, the sort patterns.
   */
  lemma DecodeThenParse<R>(s: seq<string>, compile: string -> Option<R>)
    requires |s| >= 1
    ensures SerdeList.Decode(s).Ok?
    ensures ParseFilterSort(SerdeList.Decode(s).value, compile).Ok? <==> AllCompile(s, compile)
    ensures ParseFilterSort(SerdeList.Decode(s).value, compile).Ok? ==>
              ParseFilterSort(SerdeList.Decode(s).value, compile).value
              == FilterSort(compile(s[0]).value, if |s| == 1 then None else Some(CompileAll(s[1..], compile)))
  {
    var x := SerdeList.Decode(s).value;
    assert x.regex == s[0];
    assert forall i :: 1 <= i < |s| ==> s[i] == s[1..][i - 1];
    if |s| > 1 {
      assert x.order == Some(s[1..]);
    } else {
      assert x.order == None;
    }
  }
}

=== FILE: export.dfy ===
/**
 * The strings `github-issues-export` builds: the GitHub API endpoints it
 * requests, the issue-state names, and the file names it writes issues to
 * (github-issues-export-lib/src/lib.rs and render.rs).
 *
 * `slug::slugify` is the parameter `slugify`; nothing is assumed about it
 * except where a lemma says so.
 */
module Export {
  import opened Wrappers
  import opened Text
  import opened Query

  /** `IssueState`: which issues to fetch. */
  datatype IssueState = Open | Closed | All

  /** `IssueState::to_str`, which `Display` writes unchanged. */
  function ToStr(s: IssueState): (r: string)
    ensures |r| >= 3 && forall i :: 0 <= i < |r| ==> 'a' <= r[i] <= 'z'
    ensures !IsDigit(r[|r| - 1]) && '/' !in r
  {
    match s
    case Open => "open"
    case Closed => "closed"
    case All => "all"
  }

  /** Different states have different names. */
  lemma ToStrInjective(a: IssueState, b: IssueState)
    requires ToStr(a) == ToStr(b)
    ensures a == b
  {
  }

  /** `GITHUB_API_ENDPOINT`. */
  const ApiEndpoint: string := "https://api.github.com"

  /** The root of every repository endpoint. */
  const RepoRoot: string := ApiEndpoint + "/repos"

  /** `s` ends with `t`. */
  predicate EndsWith(s: string, t: string) {
    |t| <= |s| && s[|s| - |t|..] == t
  }

  /**
   * `Github::issue`: `{API}/repos/{owner}/{repo}/issues/{number}`; a
   * repository endpoint that ends in the number's last digit.
   */
  function IssueEndpoint(user: string, repo: string, number: nat): (url: string)
    ensures |url| > |RepoRoot| + 1 && url[..|RepoRoot| + 1] == RepoRoot + "/"
    ensures IsDigit(url[|url| - 1])
    ensures EndsWith(url, "/issues/" + Decimal(number))
  {
    var d := Decimal(number);
    var head := ApiEndpoint + "/repos/" + user + "/" + repo;
    var url := head + "/issues/" + d;
    assert url[..|RepoRoot| + 1] == RepoRoot + "/" by {
      assert ApiEndpoint + "/repos/" == RepoRoot + "/";
    }
    assert url == head + ("/issues/" + d);
    assert url[|url| - 1] == d[|d| - 1];
    url
  }

  /**
   * `Github::issues`: `{API}/repos/{user}/{repo}/issues?state={state}`; a
   * repository endpoint that ends in the state name's last letter.
   */
  function IssuesEndpoint(user: string, repo: string, state: IssueState): (url: string)
    ensures |url| > |RepoRoot| + 1 && url[..|RepoRoot| + 1] == RepoRoot + "/"
    ensures !IsDigit(url[|url| - 1])
    ensures EndsWith(url, "/issues?state=" + ToStr(state))
  {
    var name := ToStr(state);
    var head := ApiEndpoint + "/repos/" + user + "/" + repo;
    var url := head + "/issues?state=" + name;
    assert url[..|RepoRoot| + 1] == RepoRoot + "/" by {
      assert ApiEndpoint + "/repos/" == RepoRoot + "/";
    }
    assert url == head + ("/issues?state=" + name);
    assert url[|url| - 1] == name[|name| - 1];
    url
  }

  /**
   * `run`: one issue when the query names one, otherwise every issue in the
   * chosen state. Either way a repository endpoint; it ends in a digit
   * exactly when the query names an issue.
   */
  function RequestEndpoint(q: Query, state: IssueState): (url: string)
    ensures |url| > |RepoRoot| + 1 && url[..|RepoRoot| + 1] == RepoRoot + "/"
    ensures q.issue.Some? <==> IsDigit(url[|url| - 1])
    ensures q.issue.Some? ==> EndsWith(url, "/issues/" + Decimal(q.issue.value))
    ensures q.issue.None? ==> EndsWith(url, "/issues?state=" + ToStr(state))
  {
    match q.issue
    case Some(n) => IssueEndpoint(q.username, q.repo, n)
    case None => IssuesEndpoint(q.username, q.repo, state)
  }

  /**
   * Every repository endpoint is `RepoRoot + "/"` followed by the owner,
   * the repository and the rest of the path.
   */
  lemma EndpointShape(user: string, repo: string, lit: string, tail: string)
    requires |lit| >= 1 && lit[0] == '/'
    ensures ApiEndpoint + "/repos/" + user + "/" + repo + lit + tail
            == RepoRoot + "/" + (user + "/" + (repo + "/" + (lit[1..] + tail)))
  {
    assert ApiEndpoint + "/repos/" == RepoRoot + "/";
    assert lit == "/" + lit[1..];
  }

  /** The part of an endpoint after `RepoRoot + "/"`. */
  function RepoPath(url: string): string {
    if |url| <= |RepoRoot| then "" else url[|RepoRoot| + 1..]
  }

  /** `RepoRoot + "/" + p` has the path `p`. */
  lemma RepoPathOf(p: string)
    ensures RepoPath(RepoRoot + "/" + p) == p
  {
    assert (RepoRoot + "/" + p)[|RepoRoot| + 1..] == p;
  }

  /** `user/repo/rest`, cut at `/`, when none of the three holds a `/`. */
  lemma PathPieces(user: string, repo: string, rest: string)
    requires '/' !in user && '/' !in repo && '/' !in rest
    ensures Split(user + "/" + (repo + "/" + rest), '/') == [user, repo, rest]
  {
    SplitNone(rest, '/');
    SplitCons(user, repo + "/" + rest, '/');
    SplitCons(repo, rest, '/');
  }

  /** `a/b/c/d`, cut at `/`, when none of the four holds a `/`. */
  lemma PathPieces4(a: string, b: string, c: string, d: string)
    requires '/' !in a && '/' !in b && '/' !in c && '/' !in d
    ensures Split(a + "/" + (b + "/" + (c + "/" + d)), '/') == [a, b, c, d]
  {
    var t := b + "/" + (c + "/" + d);
    assert Split(t, '/') == [b, c, d] by {
      PathPieces(b, c, d);
    }
    assert Split(a + "/" + t, '/') == [a] + Split(t, '/') by {
      SplitCons(a, t, '/');
    }
  }

  /** The path of a single-issue endpoint. */
  lemma IssueEndpointPath(user: string, repo: string, number: nat)
    ensures RepoPath(IssueEndpoint(user, repo, number)) == user + "/" + (repo + "/" + ("issues" + "/" + Decimal(number)))
  {
    EndpointShape(user, repo, "/issues/", Decimal(number));
    assert "issues/" + Decimal(number) == "issues" + "/" + Decimal(number);
    RepoPathOf(user + "/" + (repo + "/" + ("issues" + "/" + Decimal(number))));
  }

  /** The path of an all-issues endpoint. */
  lemma IssuesEndpointPath(user: string, repo: string, state: IssueState)
    ensures RepoPath(IssuesEndpoint(user, repo, state)) == user + "/" + (repo + "/" + ("issues?state=" + ToStr(state)))
  {
    EndpointShape(user, repo, "/issues?state=", ToStr(state));
    RepoPathOf(user + "/" + (repo + "/" + ("issues?state=" + ToStr(state))));
  }

  /**
   * The path of a single-issue endpoint is the owner, the repository,
   * `issues` and the issue number, and the last segment reads back as the
   * number.
   */
  lemma IssueEndpointNames(user: string, repo: string, number: nat)
    requires '/' !in user && '/' !in repo
    ensures Split(RepoPath(IssueEndpoint(user, repo, number)), '/') == [user, repo, "issues", Decimal(number)]
    ensures DigitsValue(Decimal(number)) == number
  {
    var d := Decimal(number);
    assert '/' !in d by { assert AllDigits(d); }
    IssueEndpointPath(user, repo, number);
    assert '/' !in "issues";
    PathPieces4(user, repo, "issues", d);
    DecimalValue(number);
  }

  /** The path of an all-issues endpoint is the owner, the repository, then `issues?state=` and the state's name. */
  lemma IssuesEndpointNames(user: string, repo: string, state: IssueState)
    requires '/' !in user && '/' !in repo
    ensures Split(RepoPath(IssuesEndpoint(user, repo, state)), '/') == [user, repo, "issues?state=" + ToStr(state)]
  {
    var rest := "issues?state=" + ToStr(state);
    assert '/' !in rest;
    PathPieces(user, repo, rest);
    IssuesEndpointPath(user, repo, state);
  }

  /** Two all-issues endpoints of one repository differ when their states do. */
  lemma IssuesEndpointInjective(user: string, repo: string, a: IssueState, b: IssueState)
    requires IssuesEndpoint(user, repo, a) == IssuesEndpoint(user, repo, b)
    ensures a == b
  {
    var prefix := ApiEndpoint + "/repos/" + user + "/" + repo + "/issues?state=";
    assert IssuesEndpoint(user, repo, a) == prefix + ToStr(a);
    assert IssuesEndpoint(user, repo, b) == prefix + ToStr(b);
    assert ToStr(a) == IssuesEndpoint(user, repo, a)[|prefix|..];
    assert ToStr(b) == IssuesEndpoint(user, repo, b)[|prefix|..];
    ToStrInjective(a, b);
  }

  /** A single-issue request never coincides with an all-issues request: one ends in a digit, the other in a letter. */
  lemma EndpointsDistinct(user: string, repo: string, number: nat, user': string, repo': string, state: IssueState)
    ensures IssueEndpoint(user, repo, number) != IssuesEndpoint(user', repo', state)
  {
    var x := IssueEndpoint(user, repo, number);
    var y := IssuesEndpoint(user', repo', state);
    var d := Decimal(number);
    assert x[|x| - 1] == d[|d| - 1];
    assert y[|y| - 1] == ToStr(state)[|ToStr(state)| - 1];
  }

  /**
   * The request for a well-formed query names the query's user and
   * repository, and for a single issue, its number.
   */
  lemma RequestNamesQuery(q: Query, state: IssueState)
    requires WellFormed(q)
    ensures var parts := Split(RepoPath(RequestEndpoint(q, state)), '/');
            |parts| == 3 + (if q.issue.Some? then 1 else 0) &&
            parts[..2] == [q.username, q.repo] &&
            (q.issue.Some? ==> parts[2] == "issues" && ParseUsize(parts[3]) == q.issue) &&
            (q.issue.None? ==> parts[2] == "issues?state=" + ToStr(state))
  {
    var parts := Split(RepoPath(RequestEndpoint(q, state)), '/');
    match q.issue
    case Some(n) =>
      assert parts == [q.username, q.repo, "issues", Decimal(n)] by {
        assert RequestEndpoint(q, state) == IssueEndpoint(q.username, q.repo, n);
        IssueEndpointNames(q.username, q.repo, n);
      }
      assert parts[..2] == [q.username, q.repo];
      assert ParseUsize(parts[3]) == Some(n) by {
        ParseDecimal(n);
      }
    case None =>
      assert parts == [q.username, q.repo, "issues?state=" + ToStr(state)] by {
        assert RequestEndpoint(q, state) == IssuesEndpoint(q.username, q.repo, state);
        IssuesEndpointNames(q.username, q.repo, state);
      }
      assert parts[..2] == [q.username, q.repo];
  }

  // ---- file names ----

  /** `IssueRenderer::render_md`'s suggested path: `{:03}-{slug}.md`. */
  function SuggestedPath(number: nat, title: string, slugify: string -> string): (p: string)
    ensures |p| == |ZeroPad(number, 3)| + 1 + |slugify(title)| + 3
    ensures p[..|ZeroPad(number, 3)|] == ZeroPad(number, 3)
    ensures p[|ZeroPad(number, 3)|] == '-'
    ensures p[|ZeroPad(number, 3)| + 1..|p| - 3] == slugify(title)
    ensures p[|p| - 3..] == ".md"
  {
    var pad, slug := ZeroPad(number, 3), slugify(title);
    var p := pad + "-" + slug + ".md";
    assert p[|pad| + 1..|p| - 3] == slug;
    p
  }

  /** `issue_to_filename`: the suggested path inside the directory `path`. */
  function IssueToFilename(path: string, number: nat, title: string, slugify: string -> string): (f: string)
    ensures |f| == |path| + 1 + |SuggestedPath(number, title, slugify)|
    ensures f[..|path| + 1] == path + "/"
    ensures f[|path| + 1..] == SuggestedPath(number, title, slugify)
  {
    path + "/" + SuggestedPath(number, title, slugify)
  }

  /** The longest prefix of `s` made of ASCII digits. */
  function LeadingDigits(s: string): (r: string)
    ensures |r| <= |s| && r == s[..|r|] && AllDigits(r)
    ensures |r| < |s| ==> !IsDigit(s[|r|])
  {
    if |s| == 0 || !IsDigit(s[0]) then []
    else
      var rest := LeadingDigits(s[1..]);
      assert s[..|rest| + 1] == [s[0]] + s[1..][..|rest|];
      [s[0]] + rest
  }

  /** A run of digits followed by a non-digit is the leading digit run. */
  lemma {:induction false} LeadingDigitsOf(d: string, s: string)
    requires AllDigits(d) && |s| >= 1 && !IsDigit(s[0])
    ensures LeadingDigits(d + s) == d
  {
    if |d| > 0 {
      assert (d + s)[1..] == d[1..] + s;
      LeadingDigitsOf(d[1..], s);
    } else {
      assert d + s == s;
    }
  }

  /** The number written in front of a suggested path. */
  function PathNumber(p: string): nat {
    DigitsValue(LeadingDigits(p))
  }

  /**
   * The suggested path starts with the issue number, zero-padded to three
   * digits and never truncated, and reading that digit run gives the number
   * back.
   */
  lemma SuggestedPathNumber(number: nat, title: string, slugify: string -> string)
    ensures LeadingDigits(SuggestedPath(number, title, slugify)) == ZeroPad(number, 3)
    ensures number < 1000 ==> |ZeroPad(number, 3)| == 3
    ensures number >= 1000 ==> ZeroPad(number, 3) == Decimal(number)
    ensures PathNumber(SuggestedPath(number, title, slugify)) == number
  {
    var pad := ZeroPad(number, 3);
    var p := SuggestedPath(number, title, slugify);
    assert p == pad + ("-" + slugify(title) + ".md");
    LeadingDigitsOf(pad, "-" + slugify(title) + ".md");
    DecimalLength(number);
    ZeroPadValue(number, 3);
  }

  /** When the slug holds no `/`, the last segment of the file name is the suggested path. */
  lemma FilenameLastSegment(path: string, number: nat, title: string, slugify: string -> string)
    requires '/' !in slugify(title)
    ensures var parts := Split(IssueToFilename(path, number, title, slugify), '/');
            parts[|parts| - 1] == SuggestedPath(number, title, slugify)
  {
    var name := SuggestedPath(number, title, slugify);
    var pad := ZeroPad(number, 3);
    assert '/' !in pad by { assert AllDigits(pad); }
    assert '/' !in name by {
      assert name == pad + "-" + slugify(title) + ".md";
    }
    SplitLast(path, name, '/');
  }
}

=== FILE: query.dfy ===
/**
 * The `<query>` argument of `github-issues-export`, of the form
 * `username/repo[#issue_number]`, as `parse_args` splits it
 * (github-issues-export/src/main.rs, and the identical block in
 * github-issues-export-lib/src/lib.rs).
 *
 * The source prints "Wrong argument" and exits the process on every
 * rejection; here the rejection is the value `Err(WrongArgument(query))`.
 */
module Query {
  import opened Wrappers
  import opened Text

  /** The three `Args` fields the query fills in. */
  datatype Query = Query(username: string, repo: string, issue: Option<nat>)

  /** The one way a query is rejected; it carries the query that was rejected. */
  datatype QueryError = WrongArgument(query: string)

  /**
   * Split on `/` and require exactly two pieces; the first is the user
   * name and the second goes to `ParseRepoPart`.
   */
  function ParseQuery(q: string): (r: Result<Query, QueryError>)
    ensures Count(q, '/') != 1 ==> r == Err(WrongArgument(q))
    ensures r.Err? ==> r.error == WrongArgument(q)
    ensures r.Ok? ==> '/' !in r.value.username && '/' !in r.value.repo && '#' !in r.value.repo
    ensures r.Ok? && r.value.issue.None? ==> q == r.value.username + "/" + r.value.repo
    ensures r.Ok? && r.value.issue.Some? ==>
              exists t :: q == r.value.username + "/" + r.value.repo + "#" + t && ParseUsize(t) == r.value.issue
  {
    var parts := Split(q, '/');
    SplitPieces(q, '/');
    if |parts| != 2 then Err(WrongArgument(q))
    else
      assert q == parts[0] + "/" + parts[1] by { JoinTwo(parts, '/'); JoinSplit(q, '/'); }
      assert '/' !in parts[0] && '/' !in parts[1];
      ParseRepoPart(q, parts[0], parts[1])
  }

  /**
   * The text after the `/`, split on `#`: one piece is the repository, two
   * pieces are the repository and a `usize` issue number, more is an error.
   */
  function ParseRepoPart(q: string, user: string, tail: string): (r: Result<Query, QueryError>)
    requires q == user + "/" + tail
    requires '/' !in user && '/' !in tail
    ensures r.Err? ==> r.error == WrongArgument(q)
    ensures r.Ok? ==> r.value.username == user && '/' !in r.value.repo && '#' !in r.value.repo
    ensures r.Ok? && r.value.issue.None? ==> q == user + "/" + r.value.repo
    ensures r.Ok? && r.value.issue.Some? ==>
              exists t :: q == user + "/" + r.value.repo + "#" + t && ParseUsize(t) == r.value.issue
  {
    var rest := Split(tail, '#');
    SplitPieces(tail, '#');
    if |rest| == 1 then
      assert tail == rest[0] by { JoinSplit(tail, '#'); }
      Ok(Query(user, rest[0], None))
    else if |rest| == 2 then
      assert tail == rest[0] + "#" + rest[1] by { JoinTwo(rest, '#'); JoinSplit(tail, '#'); }
      assert '/' !in rest[0] by {
        assert forall k :: 0 <= k < |rest[0]| ==> rest[0][k] == tail[k];
      }
      assert q == user + "/" + rest[0] + "#" + rest[1] by {
        assert user + "/" + tail == user + "/" + (rest[0] + "#" + rest[1]);
      }
      match ParseUsize(rest[1])
      case None => Err(WrongArgument(q))
      case Some(n) =>
        assert ParseUsize(rest[1]) == Some(n);
        Ok(Query(user, rest[0], Some(n)))
    else
      Err(WrongArgument(q))
  }

  /** Joining two pieces puts the separator between them. */
  lemma JoinTwo(parts: seq<string>, c: char)
    requires |parts| == 2
    ensures Join(parts, c) == parts[0] + [c] + parts[1]
  {
    assert parts[1..] == [parts[1]];
  }

  /** The query is the fields written back, with the issue number in decimal. */
  function FormatQuery(x: Query): string {
    match x.issue
    case None => x.username + "/" + x.repo
    case Some(n) => x.username + "/" + x.repo + "#" + Decimal(n)
  }

  /** The field values a query can carry: a `usize` issue and no separators where they would split. */
  predicate WellFormed(x: Query) {
    '/' !in x.username && '/' !in x.repo && '#' !in x.repo &&
    (x.issue.Some? ==> x.issue.value <= UsizeMax)
  }

  /** Two pieces free of the separator split back apart. */
  lemma SplitPair(a: string, b: string, c: char)
    requires c !in a && c !in b
    ensures Split(a + [c] + b, c) == [a, b]
  {
    SplitJoin([a, b], c);
    JoinTwo([a, b], c);
  }

  /** `user/repo` is accepted with no issue number. */
  lemma ParseRepoOnly(user: string, repo: string)
    requires '/' !in user && '/' !in repo && '#' !in repo
    ensures ParseQuery(user + "/" + repo) == Ok(Query(user, repo, None))
  {
    SplitPair(user, repo, '/');
    SplitJoin([repo], '#');
  }

  /**
   * `user/repo#t` is accepted exactly when `t` parses as a `usize`; a
   * missing or malformed number, or a second `#`, is rejected.
   */
  lemma ParseWithIssue(user: string, repo: string, t: string)
    requires '/' !in user && '/' !in repo && '#' !in repo && '/' !in t
    ensures ParseQuery(user + "/" + repo + "#" + t) ==
              match ParseUsize(t)
              case None => Err(WrongArgument(user + "/" + repo + "#" + t))
              case Some(n) => Ok(Query(user, repo, Some(n)))
  {
    var q := user + "/" + repo + "#" + t;
    var rest := repo + "#" + t;
    assert q == user + "/" + rest;
    assert '/' !in rest by {
      CountAppend(repo + "#", t, '/');
      CountAppend(repo, "#", '/');
    }
    SplitPair(user, rest, '/');
    if '#' in t {
      SecondHashRejected(repo, t);
      ParseTooManyHashes(q, user, rest);
    } else {
      SplitPair(repo, t, '#');
      ParseFromPieces(q, user, rest, repo, t);
    }
  }

  /** With the query cut into its pieces, the parse depends only on the number. */
  lemma ParseFromPieces(q: string, user: string, rest: string, repo: string, t: string)
    requires Split(q, '/') == [user, rest]
    requires Split(rest, '#') == [repo, t]
    ensures ParseQuery(q) ==
              match ParseUsize(t)
              case None => Err(WrongArgument(q))
              case Some(n) => Ok(Query(user, repo, Some(n)))
  {
  }

  /** More than one `#` after the `/` is rejected. */
  lemma ParseTooManyHashes(q: string, user: string, rest: string)
    requires Split(q, '/') == [user, rest]
    requires |Split(rest, '#')| > 2
    ensures ParseQuery(q) == Err(WrongArgument(q))
  {
  }

  /** A second `#` gives three or more pieces, and the number after the first is no `usize` either. */
  lemma SecondHashRejected(repo: string, t: string)
    requires '#' in t
    ensures |Split(repo + "#" + t, '#')| > 2
    ensures ParseUsize(t).None?
  {
    CountAppend(repo + "#", t, '#');
    CountAppend(repo, "#", '#');
    SplitPieces(repo + "#" + t, '#');
    var k :| 0 <= k < |t| && t[k] == '#';
    assert !IsDigit(t[k]);
  }

  /** Every well-formed query survives formatting and parsing. */
  lemma ParseFormatQuery(x: Query)
    requires WellFormed(x)
    ensures ParseQuery(FormatQuery(x)) == Ok(x)
  {
    match x.issue
    case None => ParseRepoOnly(x.username, x.repo);
    case Some(n) =>
      assert '/' !in Decimal(n) by { assert AllDigits(Decimal(n)); }
      ParseWithIssue(x.username, x.repo, Decimal(n));
      ParseDecimal(n);
  }

  /** The issue number may be written with a leading `+` or leading zeros: `user/repo#+07` names issue 7. */
  lemma NonCanonicalIssue(user: string, repo: string)
    requires '/' !in user && '/' !in repo && '#' !in repo
    ensures ParseQuery(user + "/" + repo + "#+07") == Ok(Query(user, repo, Some(7)))
  {
    var t := "+07";
    assert "#" + t == "#+07";
    assert ParseUsize(t) == Some(7) by {
      var digits := t[1..];
      assert digits == "07";
      assert DigitsValue(digits) == 7 by {
        assert digits[..1] == "0";
        assert DigitsValue("0") == 0 by { assert "0"[..0] == ""; }
      }
    }
    assert '/' !in t;
    ParseWithIssue(user, repo, t);
    ConcatAssoc(user + "/" + repo, "#", t);
  }
}

=== FILE: remodel.dfy ===
/**
 * Converting GitHub's resource records into the grid's view model
 * (issue-grid/src/remodel.rs, `FromGithub`), and the same four conversions
 * written with the `remodel!` macro (issue-grid/src/remodel/github.rs,
 * module `GithubRemodel` below).
 *
 * The GitHub records keep only the fields the conversions read. A `u64`
 * id is a `nat`; the conversions copy it unchanged, so its width does not
 * matter here.
 */
module Remodel {

  /** `gh::User`. */
  datatype GhUser = GhUser(id: nat, login: string, avatarUrl: string, htmlUrl: string)

  /** `gh::Label`: the color is six hex digits without the `#`. */
  datatype GhLabel = GhLabel(name: string, color: string)

  /** `gh::Issue`. */
  datatype GhIssue = GhIssue(id: nat, htmlUrl: string, title: string, labels: seq<GhLabel>)

  /** `model::Color`: a CSS color, including the `#`. */
  datatype Color = Color(css: string)

  /** `model::User`. */
  datatype User = User(id: nat, name: string, iconUrl: string, hyperlink: string)

  /** `model::Label`. */
  datatype Label = Label(name: string, color: Color)

  /** `model::IssueSummary`. */
  datatype IssueSummary = IssueSummary(id: nat, hyperlink: string, title: string, labels: seq<Label>)

  /** `FromGithub<Vec<A>> for Vec<B>`: convert every element, in order. */
  function VecFromGh<A, B>(gh: seq<A>, conv: A -> B): (r: seq<B>)
    ensures |r| == |gh|
    ensures forall i :: 0 <= i < |gh| ==> r[i] == conv(gh[i])
  {
    if |gh| == 0 then [] else [conv(gh[0])] + VecFromGh(gh[1..], conv)
  }

  /** Converting a concatenation converts each part. */
  lemma {:induction false} VecFromGhAppend<A, B>(xs: seq<A>, ys: seq<A>, conv: A -> B)
    ensures VecFromGh(xs + ys, conv) == VecFromGh(xs, conv) + VecFromGh(ys, conv)
  {
    if |xs| > 0 {
      assert (xs + ys)[1..] == xs[1..] + ys;
      VecFromGhAppend(xs[1..], ys, conv);
    } else {
      assert xs + ys == ys;
    }
  }

  /** `FromGithub<String> for Color`: `format!("#{}", old)`. */
  function ColorFromGh(gh: string): (c: Color)
    ensures |c.css| == |gh| + 1
    ensures c.css[0] == '#' && c.css[1..] == gh
  {
    Color("#" + gh)
  }

  /** The GitHub color a CSS color came from. */
  function ColorToGh(c: Color): string {
    if |c.css| > 0 then c.css[1..] else c.css
  }

  /** A converted color gives back the GitHub color. */
  lemma ColorRoundTrip(gh: string)
    ensures ColorToGh(ColorFromGh(gh)) == gh
  {
  }

  /** Different GitHub colors give different CSS colors. */
  lemma ColorFromGhInjective(a: string, b: string)
    requires ColorFromGh(a) == ColorFromGh(b)
    ensures a == b
  {
    ColorRoundTrip(a);
    ColorRoundTrip(b);
  }

  /** `FromGithub<gh::User> for User`: the same id, renamed fields. */
  function UserFromGh(gh: GhUser): (u: User)
    ensures u.id == gh.id && u.name == gh.login
    ensures u.iconUrl == gh.avatarUrl && u.hyperlink == gh.htmlUrl
  {
    User(gh.id, gh.login, gh.avatarUrl, gh.htmlUrl)
  }

  /** The GitHub user a view-model user came from. */
  function UserToGh(u: User): GhUser {
    GhUser(u.id, u.name, u.iconUrl, u.hyperlink)
  }

  /** No field of the GitHub user is lost or mixed up. */
  lemma UserRoundTrip(gh: GhUser, u: User)
    ensures UserToGh(UserFromGh(gh)) == gh
    ensures UserFromGh(UserToGh(u)) == u
  {
  }

  /** `FromGithub<gh::Label> for Label`: the same name, the color converted. */
  function LabelFromGh(gh: GhLabel): (l: Label)
    ensures l.name == gh.name && l.color.css == "#" + gh.color
  {
    Label(gh.name, ColorFromGh(gh.color))
  }

  /** The GitHub label a view-model label came from. */
  function LabelToGh(l: Label): GhLabel {
    GhLabel(l.name, ColorToGh(l.color))
  }

  /** Converting a label loses nothing. */
  lemma LabelRoundTrip(gh: GhLabel)
    ensures LabelToGh(LabelFromGh(gh)) == gh
  {
    ColorRoundTrip(gh.color);
  }

  /** `FromGithub<gh::Issue> for IssueSummary`: id, link and title copied, labels converted one by one. */
  function IssueSummaryFromGh(gh: GhIssue): (s: IssueSummary)
    ensures s.id == gh.id && s.hyperlink == gh.htmlUrl && s.title == gh.title
    ensures |s.labels| == |gh.labels|
    ensures forall i :: 0 <= i < |gh.labels| ==> s.labels[i] == LabelFromGh(gh.labels[i])
  {
    IssueSummary(gh.id, gh.htmlUrl, gh.title, VecFromGh(gh.labels, LabelFromGh))
  }

  /** The GitHub issue a summary came from, as far as the summary records it. */
  function IssueSummaryToGh(s: IssueSummary): GhIssue {
    GhIssue(s.id, s.hyperlink, s.title, VecFromGh(s.labels, LabelToGh))
  }

  /** Summarising an issue keeps every field the summary reads. */
  lemma IssueSummaryRoundTrip(gh: GhIssue)
    ensures IssueSummaryToGh(IssueSummaryFromGh(gh)) == gh
  {
    var back := IssueSummaryToGh(IssueSummaryFromGh(gh)).labels;
    forall i | 0 <= i < |gh.labels|
      ensures back[i] == gh.labels[i]
    {
      LabelRoundTrip(gh.labels[i]);
    }
  }
}

/**
 * The conversions of issue-grid/src/remodel/github.rs, written with the
 * `remodel!` macro (`type Github remodels (T) -> (T)`): each `conv` returns
 * the target type itself. `conv(from.labels)` relies on a `Vec` conversion
 * that neither remodel.rs nor remodel/github.rs defines; it is taken to
 * convert element by element, like `FromGithub<Vec<A>>`. Each conversion is
 * proved equal to its `FromGithub` counterpart in module `Remodel`.
 */
module GithubRemodel {
  import opened Remodel

  /** `(from: String) -> Color`. */
  function ConvColor(from: string): (c: Color)
    ensures |c.css| == |from| + 1
    ensures c.css[..1] == "#" && c.css[1..] == from
    ensures c == ColorFromGh(from)
  {
    Color("#" + from)
  }

  /** `(from: fr::User) -> User`. */
  function ConvUser(from: GhUser): (u: User)
    ensures u.id == from.id && u.name == from.login
    ensures u.iconUrl == from.avatarUrl && u.hyperlink == from.htmlUrl
    ensures u == UserFromGh(from)
  {
    User(from.id, from.login, from.avatarUrl, from.htmlUrl)
  }

  /** `(from: fr::Label) -> Label`. */
  function ConvLabel(from: GhLabel): (l: Label)
    ensures l.name == from.name && l.color == ConvColor(from.color)
    ensures l == LabelFromGh(from)
  {
    Label(from.name, ConvColor(from.color))
  }

  /** The `Vec` conversion `conv(from.labels)` uses. */
  function ConvLabels(from: seq<GhLabel>): (ls: seq<Label>)
    ensures |ls| == |from|
    ensures forall i :: 0 <= i < |from| ==> ls[i] == ConvLabel(from[i])
    ensures ls == VecFromGh(from, LabelFromGh)
  {
    if |from| == 0 then [] else [ConvLabel(from[0])] + ConvLabels(from[1..])
  }

  /** `(from: fr::Issue) -> IssueSummary`. */
  function ConvIssue(from: GhIssue): (s: IssueSummary)
    ensures s.id == from.id && s.hyperlink == from.htmlUrl && s.title == from.title
    ensures s.labels == ConvLabels(from.labels)
    ensures s == IssueSummaryFromGh(from)
  {
    IssueSummary(from.id, from.htmlUrl, from.title, ConvLabels(from.labels))
  }

  /** The macro conversions agree with the `FromGithub` ones, field for field. */
  lemma AgreesWithFromGithub(color: string, user: GhUser, lbl: GhLabel, issue: GhIssue)
    ensures ConvColor(color) == ColorFromGh(color)
    ensures ConvUser(user) == UserFromGh(user)
    ensures ConvLabel(lbl) == LabelFromGh(lbl)
    ensures ConvIssue(issue) == IssueSummaryFromGh(issue)
  {
    var a, b := ConvIssue(issue).labels, IssueSummaryFromGh(issue).labels;
    assert |a| == |b|;
    forall i | 0 <= i < |a|
      ensures a[i] == b[i]
    {
      assert a[i] == ConvLabel(issue.labels[i]);
    }
  }
}

=== FILE: serde_list.dfy ===
/**
 * The sequence form of `IssueSortInstr` that the `serde_as_list!` macro
 * generates for `struct IssueSortInstr; field regex; option_tail order;`
 * (issue-grid/src/serde_util.rs, and the verbatim copy of the macro in
 * issue-grid/src/main.rs).
 *
 * Serialising writes the `field` first and then, when the `option_tail` is
 * `Some`, each of its elements. Deserialising reads one element for the
 * field (failing with the message `IssueSortInstr.regex` when there is none)
 * and collects every remaining element into the tail, which becomes `None`
 * when it is empty. The serde plumbing is reduced to its sequence semantics:
 * a serialised value is a `seq<string>`.
 */
module SerdeList {
  import opened Wrappers

  /** `cfg_model::IssueSortInstr`. */
  datatype IssueSortInstr = IssueSortInstr(regex: string, order: Option<seq<string>>)

  /** The custom error the `field regex` step raises on a missing element. */
  const MissingRegex: string := "IssueSortInstr.regex"

  /** The elements the `option_tail` step writes: none for `None`. */
  function TailElements(order: Option<seq<string>>): seq<string> {
    match order
    case None => []
    case Some(v) => v
  }

  /** `Serialize for IssueSortInstr`: `regex`, then the elements of `order`. */
  function Encode(x: IssueSortInstr): (s: seq<string>)
    ensures |s| >= 1 && s[0] == x.regex
    ensures s[1..] == TailElements(x.order)
  {
    [x.regex] + TailElements(x.order)
  }

  /** `Deserialize for IssueSortInstr`: the first element is `regex`, the rest the tail. */
  function Decode(s: seq<string>): (r: Result<IssueSortInstr, string>)
    ensures r.Err? <==> |s| == 0
    ensures r.Err? ==> r.error == MissingRegex
    ensures r.Ok? ==> r.value.regex == s[0] && TailElements(r.value.order) == s[1..]
    ensures r.Ok? ==> r.value.order != Some([])
  {
    if |s| == 0 then Err(MissingRegex)
    else
      var tail := s[1..];
      Ok(IssueSortInstr(s[0], if |tail| == 0 then None else Some(tail)))
  }

  /** `order = None` and `order = Some([])` serialise identically, to `[regex]`. */
  lemma EmptyTailsCollide(regex: string)
    ensures Encode(IssueSortInstr(regex, None)) == [regex]
    ensures Encode(IssueSortInstr(regex, Some([]))) == [regex]
  {
  }

  /** An empty sequence cannot be read back; the error names the missing field. */
  lemma DecodeEmpty()
    ensures Decode([]) == Err("IssueSortInstr.regex")
  {
  }

  /** The tail read back is `None` exactly when nothing follows the regex. */
  lemma DecodeTail(s: seq<string>)
    requires |s| >= 1
    ensures Decode(s).Ok?
    ensures Decode(s).value.order == if |s| == 1 then None else Some(s[1..])
  {
  }

  /** Every value whose tail is not `Some([])` survives the round trip. */
  lemma DecodeEncode(x: IssueSortInstr)
    requires x.order != Some([])
    ensures Decode(Encode(x)) == Ok(x)
  {
    var s := Encode(x);
    assert s[1..] == TailElements(x.order);
  }

  /** The round trip holds exactly when the tail is not `Some([])`. */
  lemma RoundTripIff(x: IssueSortInstr)
    ensures Decode(Encode(x)) == Ok(x) <==> x.order != Some([])
  {
    if x.order != Some([]) {
      DecodeEncode(x);
    }
  }

  /** Every non-empty sequence is read and written back unchanged. */
  lemma EncodeDecode(s: seq<string>)
    requires |s| >= 1
    ensures Decode(s).Ok? && Encode(Decode(s).value) == s
  {
    assert s == [s[0]] + s[1..];
  }
}

=== FILE: sort.dfy ===
/**
 * `PatternList::bin` and `PatternList::sort` (issue-grid/src/sort.rs).
 *
 * A pattern list is an ordered sequence of compiled regexes. The regex
 * engine is not modelled: `isMatch(x, p)` stands for `x.is_match(&p)` of the
 * `RegexMatch` trait and may be any total predicate.
 *
 * `bin` turns the input into a vector of slots (`Some(x)` while `x` is still
 * in the pool) and sweeps the slots once per pattern. A matching element is
 * either taken out of its slot (`duplicate == true`) or cloned and left in
 * place (`duplicate == false`). Whatever is still in a slot at the end is the
 * overflow. So, against its name, `duplicate == true` is the claiming mode in
 * which every element lands in at most one bin.
 */
module PatternSort {
  import opened Wrappers
  import Text

  // ---- the data the code builds ----

  /** `Binned<T>`: one bin per pattern plus the leftover elements. */
  datatype Binned<T> = Binned(bins: seq<seq<T>>, overflow: seq<T>)

  /** Result of sweeping the slots with one pattern: its bin and the slots afterwards. */
  datatype Pass<T> = Pass(bin: seq<T>, slots: seq<Option<T>>)

  /** Result of sweeping the slots with a list of patterns. */
  datatype Passes<T> = Passes(bins: seq<seq<T>>, slots: seq<Option<T>>)

  // ---- reference definitions the properties are stated with ----

  /** The elements of `s` that match `regex`, in input order. */
  function Matching<T, R>(s: seq<T>, regex: R, isMatch: (T, R) -> bool): (r: seq<T>)
    ensures |r| <= |s|
  {
    if |s| == 0 then []
    else (if isMatch(s[0], regex) then [s[0]] else []) + Matching(s[1..], regex, isMatch)
  }

  /** The elements of `s` that do not match `regex`, in input order. */
  function Unmatching<T, R>(s: seq<T>, regex: R, isMatch: (T, R) -> bool): (r: seq<T>)
    ensures |r| <= |s|
  {
    if |s| == 0 then []
    else (if isMatch(s[0], regex) then [] else [s[0]]) + Unmatching(s[1..], regex, isMatch)
  }

  /** One match list per pattern: `[Matching(s, p) | p in patterns]`. */
  function MatchLists<T, R>(s: seq<T>, patterns: seq<R>, isMatch: (T, R) -> bool): (r: seq<seq<T>>)
    ensures |r| == |patterns|
    ensures forall i :: 0 <= i < |patterns| ==> r[i] == Matching(s, patterns[i], isMatch)
  {
    if |patterns| == 0 then []
    else [Matching(s, patterns[0], isMatch)] + MatchLists(s, patterns[1..], isMatch)
  }

  /**
   * The rank of `x`: the index of the first pattern it matches, or
   * `|patterns|` (after every real rank) when it matches none.
   */
  function Rank<T, R>(patterns: seq<R>, x: T, isMatch: (T, R) -> bool): (k: nat)
    ensures k <= |patterns|
  {
    if |patterns| == 0 then 0
    else if isMatch(x, patterns[0]) then 0
    else 1 + Rank(patterns[1..], x, isMatch)
  }

  /** The rank is the index of the first matching pattern: that one matches, no earlier one does. */
  lemma {:induction false} RankIsFirstMatch<T, R>(patterns: seq<R>, x: T, isMatch: (T, R) -> bool)
    ensures Rank(patterns, x, isMatch) < |patterns| ==> isMatch(x, patterns[Rank(patterns, x, isMatch)])
    ensures forall j :: 0 <= j < Rank(patterns, x, isMatch) ==> !isMatch(x, patterns[j])
    decreases |patterns|
  {
    if |patterns| > 0 && !isMatch(x, patterns[0]) {
      RankIsFirstMatch(patterns[1..], x, isMatch);
      assert forall j :: 1 <= j < |patterns| ==> patterns[j] == patterns[1..][j - 1];
    }
  }

  /** The elements of `s` of rank `k`, in input order. */
  function WithRank<T, R>(s: seq<T>, patterns: seq<R>, k: nat, isMatch: (T, R) -> bool): (r: seq<T>)
    ensures |r| <= |s|
  {
    if |s| == 0 then []
    else (if Rank(patterns, s[0], isMatch) == k then [s[0]] else []) + WithRank(s[1..], patterns, k, isMatch)
  }

  /** Concatenation of a sequence of sequences (`flat_map(identity)`). */
  function Flatten<T>(ss: seq<seq<T>>): (r: seq<T>)
    ensures |r| == SumLengths(ss)
  {
    if |ss| == 0 then [] else ss[0] + Flatten(ss[1..])
  }

  /** `bins.iter().map(Vec::len).sum()`. */
  function SumLengths<T>(ss: seq<seq<T>>): nat {
    if |ss| == 0 then 0 else |ss[0]| + SumLengths(ss[1..])
  }

  /** How many of the patterns `x` matches. */
  function MatchCount<T, R>(x: T, patterns: seq<R>, isMatch: (T, R) -> bool): (n: nat)
    ensures n <= |patterns|
  {
    if |patterns| == 0 then 0
    else (if isMatch(x, patterns[0]) then 1 else 0) + MatchCount(x, patterns[1..], isMatch)
  }

  /** The number of (element, pattern) pairs in which the element matches the pattern. */
  function MatchPairs<T, R>(elems: seq<T>, patterns: seq<R>, isMatch: (T, R) -> bool): (n: nat)
    ensures n <= |elems| * |patterns|
  {
    if |elems| == 0 then 0
    else MatchCount(elems[0], patterns, isMatch) + MatchPairs(elems[1..], patterns, isMatch)
  }

  /** A sequence whose ranks never decrease. */
  ghost predicate SortedByRank<T, R>(s: seq<T>, patterns: seq<R>, isMatch: (T, R) -> bool) {
    forall i, j :: 0 <= i < j < |s| ==> Rank(patterns, s[i], isMatch) <= Rank(patterns, s[j], isMatch)
  }

  /** Inserts `x` in front of the first element whose rank is not below its own. */
  function InsertByRank<T, R>(x: T, s: seq<T>, patterns: seq<R>, isMatch: (T, R) -> bool): (r: seq<T>)
    ensures |r| == |s| + 1
  {
    if |s| == 0 then [x]
    else if Rank(patterns, x, isMatch) <= Rank(patterns, s[0], isMatch) then [x] + s
    else [s[0]] + InsertByRank(x, s[1..], patterns, isMatch)
  }

  /** Insertion adds `x` and keeps everything else. */
  lemma {:induction false} InsertByRankAdds<T, R>(x: T, s: seq<T>, patterns: seq<R>, isMatch: (T, R) -> bool)
    ensures multiset(InsertByRank(x, s, patterns, isMatch)) == multiset(s) + multiset{x}
    decreases |s|
  {
    if |s| > 0 && Rank(patterns, x, isMatch) > Rank(patterns, s[0], isMatch) {
      InsertByRankAdds(x, s[1..], patterns, isMatch);
      assert s == [s[0]] + s[1..];
    }
  }

  /**
   * Stable insertion sort by rank: the reference ordering. Elements of equal
   * rank keep their input order, because each element is inserted in front
   * of the equal-rank elements that follow it in the input.
   */
  function SortByRank<T, R>(s: seq<T>, patterns: seq<R>, isMatch: (T, R) -> bool): (r: seq<T>)
    ensures multiset(r) == multiset(s)
  {
    if |s| == 0 then []
    else
      var t := SortByRank(s[1..], patterns, isMatch);
      InsertByRankAdds(s[0], t, patterns, isMatch);
      assert s == [s[0]] + s[1..];
      InsertByRank(s[0], t, patterns, isMatch)
  }

  /** Every element of an insertion is `x` or an element of `s`. */
  lemma InsertByRankFrom<T, R>(x: T, s: seq<T>, patterns: seq<R>, isMatch: (T, R) -> bool, j: nat)
    requires j < |s| + 1
    ensures InsertByRank(x, s, patterns, isMatch)[j] == x || InsertByRank(x, s, patterns, isMatch)[j] in s
  {
    var r := InsertByRank(x, s, patterns, isMatch);
    InsertByRankAdds(x, s, patterns, isMatch);
    assert r[j] in multiset(r);
  }

  /** Inserting into a rank-sorted sequence keeps it rank-sorted. */
  lemma {:induction false} InsertByRankSorted<T, R>(x: T, s: seq<T>, patterns: seq<R>, isMatch: (T, R) -> bool)
    requires SortedByRank(s, patterns, isMatch)
    ensures SortedByRank(InsertByRank(x, s, patterns, isMatch), patterns, isMatch)
    decreases |s|
  {
    if |s| > 0 && Rank(patterns, x, isMatch) > Rank(patterns, s[0], isMatch) {
      var t := InsertByRank(x, s[1..], patterns, isMatch);
      assert SortedByRank(s[1..], patterns, isMatch) by {
        assert forall i :: 0 <= i < |s| - 1 ==> s[1..][i] == s[i + 1];
      }
      InsertByRankSorted(x, s[1..], patterns, isMatch);
      forall j | 0 <= j < |t|
        ensures Rank(patterns, s[0], isMatch) <= Rank(patterns, t[j], isMatch)
      {
        InsertByRankFrom(x, s[1..], patterns, isMatch, j);
        if t[j] != x {
          var m :| 0 <= m < |s[1..]| && s[1..][m] == t[j];
          assert s[m + 1] == t[j];
        }
      }
      var r := [s[0]] + t;
      assert forall j :: 1 <= j < |r| ==> r[j] == t[j - 1];
    }
  }

  /** `SortByRank` orders by rank. */
  lemma {:induction false} SortByRankSorted<T, R>(s: seq<T>, patterns: seq<R>, isMatch: (T, R) -> bool)
    ensures SortedByRank(SortByRank(s, patterns, isMatch), patterns, isMatch)
    decreases |s|
  {
    if |s| > 0 {
      SortByRankSorted(s[1..], patterns, isMatch);
      InsertByRankSorted(s[0], SortByRank(s[1..], patterns, isMatch), patterns, isMatch);
    }
  }

  /** Inserting `x` puts it in front of the elements of its own rank and leaves every other rank class alone. */
  lemma {:induction false} InsertByRankClasses<T, R>(x: T, s: seq<T>, patterns: seq<R>, k: nat, isMatch: (T, R) -> bool)
    ensures WithRank(InsertByRank(x, s, patterns, isMatch), patterns, k, isMatch)
            == (if Rank(patterns, x, isMatch) == k then [x] else []) + WithRank(s, patterns, k, isMatch)
    decreases |s|
  {
    var r := InsertByRank(x, s, patterns, isMatch);
    if |s| == 0 {
      assert r == [x] && r[1..] == [];
    } else if Rank(patterns, x, isMatch) <= Rank(patterns, s[0], isMatch) {
      assert r == [x] + s && r[1..] == s;
    } else {
      var t := InsertByRank(x, s[1..], patterns, isMatch);
      assert r == [s[0]] + t && r[1..] == t;
      InsertByRankClasses(x, s[1..], patterns, k, isMatch);
    }
  }

  /** `SortByRank` is stable: each rank class keeps the input order. */
  lemma {:induction false} SortByRankStable<T, R>(s: seq<T>, patterns: seq<R>, k: nat, isMatch: (T, R) -> bool)
    ensures WithRank(SortByRank(s, patterns, isMatch), patterns, k, isMatch) == WithRank(s, patterns, k, isMatch)
    decreases |s|
  {
    if |s| > 0 {
      SortByRankStable(s[1..], patterns, k, isMatch);
      InsertByRankClasses(s[0], SortByRank(s[1..], patterns, isMatch), patterns, k, isMatch);
    }
  }

  /** `Matching` keeps exactly the matching elements. */
  lemma {:induction false} MatchingMember<T, R>(s: seq<T>, regex: R, isMatch: (T, R) -> bool, x: T)
    ensures x in Matching(s, regex, isMatch) <==> x in s && isMatch(x, regex)
    decreases |s|
  {
    if |s| > 0 {
      MatchingMember(s[1..], regex, isMatch, x);
      assert s == [s[0]] + s[1..];
    }
  }

  /** `WithRank` keeps exactly the elements of the given rank. */
  lemma {:induction false} WithRankMember<T, R>(s: seq<T>, patterns: seq<R>, k: nat, isMatch: (T, R) -> bool, x: T)
    ensures x in WithRank(s, patterns, k, isMatch) <==> x in s && Rank(patterns, x, isMatch) == k
    decreases |s|
  {
    if |s| > 0 {
      WithRankMember(s[1..], patterns, k, isMatch, x);
      assert s == [s[0]] + s[1..];
    }
  }

  // ---- the code ----

  /** `elems.into_iter().map(Some).collect()`: every element starts in its own slot. */
  function Pool<T>(elems: seq<T>): (slots: seq<Option<T>>)
    ensures |slots| == |elems|
    ensures forall i :: 0 <= i < |elems| ==> slots[i] == Some(elems[i])
  {
    seq(|elems|, i requires 0 <= i < |elems| => Some(elems[i]))
  }

  /** `options.into_iter().flat_map(identity)`: the elements still in a slot, in slot order. */
  function Present<T>(slots: seq<Option<T>>): (r: seq<T>)
    ensures |r| <= |slots|
  {
    if |slots| == 0 then []
    else (if slots[0].Some? then [slots[0].value] else []) + Present(slots[1..])
  }

  /**
   * One pattern's pass over the slots (the closure mapped over
   * `self.patterns`): collects, in slot order, the present elements that
   * match, taking them out of their slots when `duplicate` holds and cloning
   * them otherwise.
   */
  function SweepPattern<T, R>(slots: seq<Option<T>>, regex: R, duplicate: bool, isMatch: (T, R) -> bool): (p: Pass<T>)
    ensures |p.slots| == |slots|
  {
    if |slots| == 0 then Pass([], [])
    else
      var rest := SweepPattern(slots[1..], regex, duplicate, isMatch);
      match slots[0]
      case None => Pass(rest.bin, [None] + rest.slots)
      case Some(x) =>
        if !isMatch(x, regex) then Pass(rest.bin, [slots[0]] + rest.slots)
        else if duplicate then Pass([x] + rest.bin, [None] + rest.slots)
        else Pass([x] + rest.bin, [slots[0]] + rest.slots)
  }

  /** The passes of all patterns, in pattern order, each one seeing the slots the previous left. */
  function SweepAll<T, R>(patterns: seq<R>, slots: seq<Option<T>>, duplicate: bool, isMatch: (T, R) -> bool): (ps: Passes<T>)
    ensures |ps.bins| == |patterns|
    ensures |ps.slots| == |slots|
  {
    if |patterns| == 0 then Passes([], slots)
    else
      var p := SweepPattern(slots, patterns[0], duplicate, isMatch);
      var rest := SweepAll(patterns[1..], p.slots, duplicate, isMatch);
      Passes([p.bin] + rest.bins, rest.slots)
  }

  /**
   * One bin per pattern, each holding only input elements that match its
   * pattern, and an overflow holding only input elements.
   */
  ghost predicate BinnedFrom<T, R>(b: Binned<T>, patterns: seq<R>, elems: seq<T>, isMatch: (T, R) -> bool) {
    && |b.bins| == |patterns|
    && (forall i, j :: 0 <= i < |patterns| && 0 <= j < |b.bins[i]| ==>
          b.bins[i][j] in elems && isMatch(b.bins[i][j], patterns[i]))
    && (forall j :: 0 <= j < |b.overflow| ==> b.overflow[j] in elems)
  }

  /**
   * `PatternList::bin`: one bin per pattern, in pattern order; every element
   * of bin `i` is an input element matching pattern `i`; the overflow holds
   * only input elements.
   */
  function Bin<T, R>(patterns: seq<R>, elems: seq<T>, duplicate: bool, isMatch: (T, R) -> bool): (r: Binned<T>)
    ensures |r.bins| == |patterns|
    ensures BinnedFrom(r, patterns, elems, isMatch)
  {
    var ps := SweepAll(patterns, Pool(elems), duplicate, isMatch);
    var r := Binned(ps.bins, Present(ps.slots));
    assert BinnedFrom(r, patterns, elems, isMatch) by {
      BinMembers(patterns, elems, duplicate, isMatch);
    }
    r
  }

  /**
   * `PatternList::sort` as written: it bins with `duplicate == false`, so the
   * result is every pattern's full match list followed by the whole input.
   */
  function Sort<T, R>(patterns: seq<R>, elems: seq<T>, isMatch: (T, R) -> bool): (r: seq<T>)
    ensures r == Flatten(MatchLists(elems, patterns, isMatch)) + elems
    ensures |r| == |elems| + MatchPairs(elems, patterns, isMatch)
  {
    var b := Bin(patterns, elems, false, isMatch);
    BinClones(patterns, elems, isMatch);
    MatchListsLength(elems, patterns, isMatch);
    Flatten(b.bins) + b.overflow
  }

  /**
   * `PatternList::sort` with the binning mode it evidently intends
   * (`duplicate == true`): a stable sort of the input by rank.
   */
  function SortClaimed<T, R>(patterns: seq<R>, elems: seq<T>, isMatch: (T, R) -> bool): (r: seq<T>)
    ensures r == SortByRank(elems, patterns, isMatch)
    ensures multiset(r) == multiset(elems)
  {
    var b := Bin(patterns, elems, true, isMatch);
    BinClaimsIsStableSort(patterns, elems, isMatch);
    Flatten(b.bins) + b.overflow
  }

  // ---- slots ----

  lemma {:induction false} PresentPool<T>(elems: seq<T>)
    ensures Present(Pool(elems)) == elems
    decreases |elems|
  {
    if |elems| > 0 {
      assert Pool(elems)[1..] == Pool(elems[1..]);
      PresentPool(elems[1..]);
      assert elems == [elems[0]] + elems[1..];
    }
  }

  lemma {:induction false} PresentCons<T>(o: Option<T>, slots: seq<Option<T>>)
    ensures Present([o] + slots) == (if o.Some? then [o.value] else []) + Present(slots)
  {
    assert ([o] + slots)[1..] == slots;
  }

  /** One pass collects, in slot order, the present elements that match. */
  lemma {:induction false} SweepPatternBin<T, R>(slots: seq<Option<T>>, regex: R, duplicate: bool, isMatch: (T, R) -> bool)
    ensures SweepPattern(slots, regex, duplicate, isMatch).bin == Matching(Present(slots), regex, isMatch)
    decreases |slots|
  {
    if |slots| > 0 {
      SweepPatternBin(slots[1..], regex, duplicate, isMatch);
      var tail := Present(slots[1..]);
      assert slots == [slots[0]] + slots[1..];
      PresentCons(slots[0], slots[1..]);
      if slots[0].Some? {
        assert Present(slots) == [slots[0].value] + tail;
        assert ([slots[0].value] + tail)[1..] == tail;
      } else {
        assert Present(slots) == tail;
      }
    }
  }

  /** A taking pass leaves exactly the present elements that do not match. */
  lemma {:induction false} SweepPatternTakes<T, R>(slots: seq<Option<T>>, regex: R, isMatch: (T, R) -> bool)
    ensures Present(SweepPattern(slots, regex, true, isMatch).slots) == Unmatching(Present(slots), regex, isMatch)
    decreases |slots|
  {
    if |slots| > 0 {
      var rest := SweepPattern(slots[1..], regex, true, isMatch);
      SweepPatternTakes(slots[1..], regex, isMatch);
      var tail := Present(slots[1..]);
      assert slots == [slots[0]] + slots[1..];
      PresentCons(slots[0], slots[1..]);
      PresentCons(None, rest.slots);
      PresentCons(slots[0], rest.slots);
      if slots[0].Some? {
        assert Present(slots) == [slots[0].value] + tail;
        assert ([slots[0].value] + tail)[1..] == tail;
      } else {
        assert Present(slots) == tail;
      }
    }
  }

  /** A cloning pass leaves the slots as they were. */
  lemma {:induction false} SweepPatternClones<T, R>(slots: seq<Option<T>>, regex: R, isMatch: (T, R) -> bool)
    ensures SweepPattern(slots, regex, false, isMatch).slots == slots
    decreases |slots|
  {
    if |slots| > 0 {
      SweepPatternClones(slots[1..], regex, isMatch);
      assert slots == [slots[0]] + slots[1..];
    }
  }

  // ---- clone mode ----

  /** Without taking, every pass sees every element and the slots never change. */
  lemma {:induction false} SweepAllClones<T, R>(patterns: seq<R>, slots: seq<Option<T>>, isMatch: (T, R) -> bool)
    ensures SweepAll(patterns, slots, false, isMatch).bins == MatchLists(Present(slots), patterns, isMatch)
    ensures SweepAll(patterns, slots, false, isMatch).slots == slots
    decreases |patterns|
  {
    if |patterns| > 0 {
      SweepPatternBin(slots, patterns[0], false, isMatch);
      SweepPatternClones(slots, patterns[0], isMatch);
      SweepAllClones(patterns[1..], slots, isMatch);
    }
  }

  /**
   * With `duplicate == false`, bin `i` is the input filtered by pattern `i`
   * whatever the other patterns are, and the overflow is the whole input.
   */
  lemma BinClones<T, R>(patterns: seq<R>, elems: seq<T>, isMatch: (T, R) -> bool)
    ensures Bin(patterns, elems, false, isMatch).bins == MatchLists(elems, patterns, isMatch)
    ensures Bin(patterns, elems, false, isMatch).overflow == elems
  {
    SweepAllClones(patterns, Pool(elems), isMatch);
    PresentPool(elems);
  }

  // ---- claim mode ----

  lemma {:induction false} RankEmpty<T, R>(s: seq<T>, patterns: seq<R>, isMatch: (T, R) -> bool)
    requires |patterns| == 0
    ensures WithRank(s, patterns, 0, isMatch) == s
    decreases |s|
  {
    if |s| > 0 {
      RankEmpty(s[1..], patterns, isMatch);
      assert s == [s[0]] + s[1..];
    }
  }

  /** Rank 0 means matching the first pattern. */
  lemma {:induction false} RankZero<T, R>(s: seq<T>, patterns: seq<R>, isMatch: (T, R) -> bool)
    requires |patterns| > 0
    ensures Matching(s, patterns[0], isMatch) == WithRank(s, patterns, 0, isMatch)
    decreases |s|
  {
    if |s| > 0 {
      RankZero(s[1..], patterns, isMatch);
    }
  }

  /**
   * Removing the first pattern's matches and ranking against the remaining
   * patterns shifts every rank down by one.
   */
  lemma {:induction false} RankShift<T, R>(s: seq<T>, patterns: seq<R>, k: nat, isMatch: (T, R) -> bool)
    requires |patterns| > 0
    ensures WithRank(Unmatching(s, patterns[0], isMatch), patterns[1..], k, isMatch)
            == WithRank(s, patterns, k + 1, isMatch)
    decreases |s|
  {
    if |s| > 0 {
      var u := Unmatching(s[1..], patterns[0], isMatch);
      RankShift(s[1..], patterns, k, isMatch);
      if !isMatch(s[0], patterns[0]) {
        assert Rank(patterns, s[0], isMatch) == 1 + Rank(patterns[1..], s[0], isMatch);
        assert Unmatching(s, patterns[0], isMatch) == [s[0]] + u;
        WithRankCons(s[0], u, patterns[1..], k, isMatch);
      } else {
        assert Rank(patterns, s[0], isMatch) == 0;
        assert Unmatching(s, patterns[0], isMatch) == u;
      }
    }
  }

  /** With taking, what no pattern takes is exactly the present elements of no pattern's rank. */
  lemma {:induction false} SweepAllLeaves<T, R>(patterns: seq<R>, slots: seq<Option<T>>, isMatch: (T, R) -> bool)
    ensures Present(SweepAll(patterns, slots, true, isMatch).slots)
            == WithRank(Present(slots), patterns, |patterns|, isMatch)
    decreases |patterns|
  {
    var s := Present(slots);
    if |patterns| == 0 {
      RankEmpty(s, patterns, isMatch);
    } else {
      var p := SweepPattern(slots, patterns[0], true, isMatch);
      assert SweepAll(patterns, slots, true, isMatch).slots == SweepAll(patterns[1..], p.slots, true, isMatch).slots;
      assert Present(p.slots) == Unmatching(s, patterns[0], isMatch) by {
        SweepPatternTakes(slots, patterns[0], isMatch);
      }
      SweepAllLeaves(patterns[1..], p.slots, isMatch);
      RankShift(s, patterns, |patterns| - 1, isMatch);
    }
  }

  /** With taking, pattern `i` receives exactly the present elements of rank `i`. */
  lemma {:induction false} SweepAllClaims<T, R>(patterns: seq<R>, slots: seq<Option<T>>, isMatch: (T, R) -> bool)
    ensures forall i :: 0 <= i < |patterns| ==>
              SweepAll(patterns, slots, true, isMatch).bins[i] == WithRank(Present(slots), patterns, i, isMatch)
    decreases |patterns|
  {
    var s := Present(slots);
    if |patterns| > 0 {
      var p := SweepPattern(slots, patterns[0], true, isMatch);
      var rest := SweepAll(patterns[1..], p.slots, true, isMatch);
      var ps := SweepAll(patterns, slots, true, isMatch);
      assert ps.bins == [p.bin] + rest.bins;
      assert p.bin == WithRank(s, patterns, 0, isMatch) by {
        SweepPatternBin(slots, patterns[0], true, isMatch);
        RankZero(s, patterns, isMatch);
      }
      assert Present(p.slots) == Unmatching(s, patterns[0], isMatch) by {
        SweepPatternTakes(slots, patterns[0], isMatch);
      }
      SweepAllClaims(patterns[1..], p.slots, isMatch);
      forall i | 1 <= i < |patterns|
        ensures ps.bins[i] == WithRank(s, patterns, i, isMatch)
      {
        assert ps.bins[i] == rest.bins[i - 1];
        RankShift(s, patterns, i - 1, isMatch);
      }
    }
  }

  /**
   * With `duplicate == true`, bin `i` holds exactly the input elements whose
   * first matching pattern is `i`, in input order, and the overflow holds
   * exactly the elements matching no pattern, in input order.
   */
  lemma BinClaims<T, R>(patterns: seq<R>, elems: seq<T>, isMatch: (T, R) -> bool)
    ensures forall i :: 0 <= i < |patterns| ==>
              Bin(patterns, elems, true, isMatch).bins[i] == WithRank(elems, patterns, i, isMatch)
    ensures Bin(patterns, elems, true, isMatch).overflow == WithRank(elems, patterns, |patterns|, isMatch)
  {
    SweepAllClaims(patterns, Pool(elems), isMatch);
    SweepAllLeaves(patterns, Pool(elems), isMatch);
    PresentPool(elems);
  }

  /**
   * First match wins: with `duplicate == true` an element is in bin `i`
   * exactly when it is an input element matching pattern `i` and no earlier
   * pattern, so it is in at most one bin; it is in the overflow exactly when
   * it matches no pattern.
   */
  lemma FirstMatchWins<T, R>(patterns: seq<R>, elems: seq<T>, isMatch: (T, R) -> bool, x: T)
    ensures forall i :: 0 <= i < |patterns| ==>
              (x in Bin(patterns, elems, true, isMatch).bins[i] <==>
                 x in elems && isMatch(x, patterns[i]) && forall j :: 0 <= j < i ==> !isMatch(x, patterns[j]))
    ensures forall i, j :: 0 <= i < j < |patterns| && x in Bin(patterns, elems, true, isMatch).bins[i] ==>
              x !in Bin(patterns, elems, true, isMatch).bins[j]
    ensures x in Bin(patterns, elems, true, isMatch).overflow <==>
              x in elems && forall j :: 0 <= j < |patterns| ==> !isMatch(x, patterns[j])
  {
    BinClaims(patterns, elems, isMatch);
    RankIsFirstMatch(patterns, x, isMatch);
    var k := Rank(patterns, x, isMatch);
    forall i | 0 <= i < |patterns|
      ensures x in Bin(patterns, elems, true, isMatch).bins[i] <==> x in elems && k == i
    {
      WithRankMember(elems, patterns, i, isMatch, x);
    }
    WithRankMember(elems, patterns, |patterns|, isMatch, x);
  }

  lemma BinMembers<T, R>(patterns: seq<R>, elems: seq<T>, duplicate: bool, isMatch: (T, R) -> bool)
    ensures var ps := SweepAll(patterns, Pool(elems), duplicate, isMatch);
            BinnedFrom(Binned(ps.bins, Present(ps.slots)), patterns, elems, isMatch)
  {
    var ps := SweepAll(patterns, Pool(elems), duplicate, isMatch);
    PresentPool(elems);
    if duplicate {
      var leftover := Present(ps.slots);
      assert forall i, j :: 0 <= i < |patterns| && 0 <= j < |ps.bins[i]| ==>
               ps.bins[i][j] in elems && isMatch(ps.bins[i][j], patterns[i]) by {
        SweepAllClaims(patterns, Pool(elems), isMatch);
        forall i, j | 0 <= i < |patterns| && 0 <= j < |ps.bins[i]|
          ensures ps.bins[i][j] in elems && isMatch(ps.bins[i][j], patterns[i])
        {
          var x := ps.bins[i][j];
          assert x in WithRank(elems, patterns, i, isMatch);
          WithRankMember(elems, patterns, i, isMatch, x);
          RankIsFirstMatch(patterns, x, isMatch);
        }
      }
      assert forall j :: 0 <= j < |leftover| ==> leftover[j] in elems by {
        SweepAllLeaves(patterns, Pool(elems), isMatch);
        forall j | 0 <= j < |leftover| ensures leftover[j] in elems {
          assert leftover[j] in WithRank(elems, patterns, |patterns|, isMatch);
          WithRankMember(elems, patterns, |patterns|, isMatch, leftover[j]);
        }
      }
    } else {
      SweepAllClones(patterns, Pool(elems), isMatch);
      forall i, j | 0 <= i < |patterns| && 0 <= j < |ps.bins[i]|
        ensures ps.bins[i][j] in elems && isMatch(ps.bins[i][j], patterns[i])
      {
        assert ps.bins[i][j] in Matching(elems, patterns[i], isMatch);
        MatchingMember(elems, patterns[i], isMatch, ps.bins[i][j]);
      }
    }
  }

  // ---- claim mode is a stable sort ----

  /** The concatenation of the rank classes `lo`, `lo + 1`, ..., `|patterns|`. */
  function Buckets<T, R>(s: seq<T>, patterns: seq<R>, lo: nat, isMatch: (T, R) -> bool): seq<T>
    decreases |patterns| + 1 - lo
  {
    if lo > |patterns| then [] else WithRank(s, patterns, lo, isMatch) + Buckets(s, patterns, lo + 1, isMatch)
  }

  lemma {:induction false} BucketsRanks<T, R>(s: seq<T>, patterns: seq<R>, lo: nat, isMatch: (T, R) -> bool)
    ensures forall y :: y in Buckets(s, patterns, lo, isMatch) ==> Rank(patterns, y, isMatch) >= lo
    decreases |patterns| + 1 - lo
  {
    if lo <= |patterns| {
      BucketsRanks(s, patterns, lo + 1, isMatch);
      var w := WithRank(s, patterns, lo, isMatch);
      var b := Buckets(s, patterns, lo + 1, isMatch);
      assert Buckets(s, patterns, lo, isMatch) == w + b;
      forall y | y in w + b ensures Rank(patterns, y, isMatch) >= lo {
        WithRankMember(s, patterns, lo, isMatch, y);
        assert y in w || y in b;
      }
    }
  }

  lemma {:induction false} BucketsOfEmpty<T, R>(patterns: seq<R>, lo: nat, isMatch: (T, R) -> bool)
    ensures Buckets([], patterns, lo, isMatch) == []
    decreases |patterns| + 1 - lo
  {
    if lo <= |patterns| {
      BucketsOfEmpty(patterns, lo + 1, isMatch);
    }
  }

  lemma {:induction false} WithRankCons<T, R>(x: T, s: seq<T>, patterns: seq<R>, k: nat, isMatch: (T, R) -> bool)
    ensures WithRank([x] + s, patterns, k, isMatch)
            == (if Rank(patterns, x, isMatch) == k then [x] else []) + WithRank(s, patterns, k, isMatch)
  {
    assert ([x] + s)[1..] == s;
  }

  /** Rank classes above `x`'s own do not see `x`. */
  lemma {:induction false} BucketsAbove<T, R>(x: T, s: seq<T>, patterns: seq<R>, lo: nat, isMatch: (T, R) -> bool)
    requires lo > Rank(patterns, x, isMatch)
    ensures Buckets([x] + s, patterns, lo, isMatch) == Buckets(s, patterns, lo, isMatch)
    decreases |patterns| + 1 - lo
  {
    if lo <= |patterns| {
      assert WithRank([x] + s, patterns, lo, isMatch) == WithRank(s, patterns, lo, isMatch) by {
        WithRankCons(x, s, patterns, lo, isMatch);
      }
      assert Buckets([x] + s, patterns, lo + 1, isMatch) == Buckets(s, patterns, lo + 1, isMatch) by {
        BucketsAbove(x, s, patterns, lo + 1, isMatch);
      }
      BucketsUnfold([x] + s, patterns, lo, isMatch);
      BucketsUnfold(s, patterns, lo, isMatch);
    }
  }

  /** Insertion passes over a prefix of strictly smaller rank. */
  lemma {:induction false} InsertSkips<T, R>(x: T, w: seq<T>, t: seq<T>, patterns: seq<R>, isMatch: (T, R) -> bool)
    requires forall y :: y in w ==> Rank(patterns, y, isMatch) < Rank(patterns, x, isMatch)
    ensures InsertByRank(x, w + t, patterns, isMatch) == w + InsertByRank(x, t, patterns, isMatch)
    decreases |w|
  {
    if |w| > 0 {
      assert (w + t)[0] == w[0];
      assert (w + t)[1..] == w[1..] + t;
      assert w[0] in w;
      assert InsertByRank(x, w + t, patterns, isMatch) == [w[0]] + InsertByRank(x, w[1..] + t, patterns, isMatch);
      InsertSkips(x, w[1..], t, patterns, isMatch);
      assert w == [w[0]] + w[1..];
    } else {
      assert w + t == t;
    }
  }

  /** An element goes in front of everything of no smaller rank. */
  lemma {:induction false} InsertFront<T, R>(x: T, t: seq<T>, patterns: seq<R>, isMatch: (T, R) -> bool)
    requires forall y :: y in t ==> Rank(patterns, x, isMatch) <= Rank(patterns, y, isMatch)
    ensures InsertByRank(x, t, patterns, isMatch) == [x] + t
  {
    if |t| > 0 {
      assert t[0] in t;
    }
  }

  lemma BucketsUnfold<T, R>(s: seq<T>, patterns: seq<R>, lo: nat, isMatch: (T, R) -> bool)
    requires lo <= |patterns|
    ensures Buckets(s, patterns, lo, isMatch) == WithRank(s, patterns, lo, isMatch) + Buckets(s, patterns, lo + 1, isMatch)
  {
  }

  /** From its own rank on, the rank classes of `[x] + s` are those of `s` with `x` in front. */
  lemma {:induction false} BucketsConsAtOwnRank<T, R>(x: T, s: seq<T>, patterns: seq<R>, isMatch: (T, R) -> bool)
    ensures Buckets([x] + s, patterns, Rank(patterns, x, isMatch), isMatch)
            == [x] + Buckets(s, patterns, Rank(patterns, x, isMatch), isMatch)
  {
    var k := Rank(patterns, x, isMatch);
    var w := WithRank(s, patterns, k, isMatch);
    var b := Buckets(s, patterns, k + 1, isMatch);
    assert WithRank([x] + s, patterns, k, isMatch) == [x] + w by {
      WithRankCons(x, s, patterns, k, isMatch);
    }
    assert Buckets([x] + s, patterns, k + 1, isMatch) == b by {
      BucketsAbove(x, s, patterns, k + 1, isMatch);
    }
    assert Buckets([x] + s, patterns, k, isMatch) == ([x] + w) + b by {
      BucketsUnfold([x] + s, patterns, k, isMatch);
    }
    assert Buckets(s, patterns, k, isMatch) == w + b by {
      BucketsUnfold(s, patterns, k, isMatch);
    }
    Text.ConcatAssoc([x], w, b);
  }

  /** Inserting `x` into the rank classes from its own rank on puts it at the front of its class. */
  lemma {:induction false} InsertAtOwnRank<T, R>(x: T, s: seq<T>, patterns: seq<R>, isMatch: (T, R) -> bool)
    ensures InsertByRank(x, Buckets(s, patterns, Rank(patterns, x, isMatch), isMatch), patterns, isMatch)
            == Buckets([x] + s, patterns, Rank(patterns, x, isMatch), isMatch)
  {
    var k := Rank(patterns, x, isMatch);
    BucketsConsAtOwnRank(x, s, patterns, isMatch);
    BucketsRanks(s, patterns, k, isMatch);
    InsertFront(x, Buckets(s, patterns, k, isMatch), patterns, isMatch);
  }

  /** Inserting `x` into the rank classes puts it at the front of its own class. */
  lemma {:induction false} InsertIntoBuckets<T, R>(x: T, s: seq<T>, patterns: seq<R>, lo: nat, isMatch: (T, R) -> bool)
    requires lo <= Rank(patterns, x, isMatch)
    ensures InsertByRank(x, Buckets(s, patterns, lo, isMatch), patterns, isMatch)
            == Buckets([x] + s, patterns, lo, isMatch)
    decreases Rank(patterns, x, isMatch) - lo
  {
    if lo == Rank(patterns, x, isMatch) {
      InsertAtOwnRank(x, s, patterns, isMatch);
    } else {
      var w := WithRank(s, patterns, lo, isMatch);
      var b := Buckets(s, patterns, lo + 1, isMatch);
      assert Buckets(s, patterns, lo, isMatch) == w + b by {
        BucketsUnfold(s, patterns, lo, isMatch);
      }
      assert Buckets([x] + s, patterns, lo, isMatch) == w + Buckets([x] + s, patterns, lo + 1, isMatch) by {
        BucketsUnfold([x] + s, patterns, lo, isMatch);
        WithRankCons(x, s, patterns, lo, isMatch);
      }
      assert InsertByRank(x, w + b, patterns, isMatch) == w + InsertByRank(x, b, patterns, isMatch) by {
        forall y | y in w ensures Rank(patterns, y, isMatch) < Rank(patterns, x, isMatch) {
          WithRankMember(s, patterns, lo, isMatch, y);
        }
        InsertSkips(x, w, b, patterns, isMatch);
      }
      assert InsertByRank(x, b, patterns, isMatch) == Buckets([x] + s, patterns, lo + 1, isMatch) by {
        InsertIntoBuckets(x, s, patterns, lo + 1, isMatch);
      }
    }
  }

  /** The rank classes laid end to end are the stable insertion sort. */
  lemma {:induction false} BucketsAreSorted<T, R>(s: seq<T>, patterns: seq<R>, isMatch: (T, R) -> bool)
    ensures Buckets(s, patterns, 0, isMatch) == SortByRank(s, patterns, isMatch)
    decreases |s|
  {
    if |s| == 0 {
      BucketsOfEmpty(patterns, 0, isMatch);
    } else {
      BucketsAreSorted(s[1..], patterns, isMatch);
      InsertIntoBuckets(s[0], s[1..], patterns, 0, isMatch);
      assert s == [s[0]] + s[1..];
    }
  }

  lemma {:induction false} FlattenClaims<T, R>(patterns: seq<R>, elems: seq<T>, lo: nat, isMatch: (T, R) -> bool)
    requires lo <= |patterns|
    ensures Flatten(Bin(patterns, elems, true, isMatch).bins[lo..]) + Bin(patterns, elems, true, isMatch).overflow
            == Buckets(elems, patterns, lo, isMatch)
    decreases |patterns| - lo
  {
    var b := Bin(patterns, elems, true, isMatch);
    if lo < |patterns| {
      var w := WithRank(elems, patterns, lo, isMatch);
      var f := Flatten(b.bins[lo + 1..]);
      assert b.bins[lo] == w by {
        BinClaims(patterns, elems, isMatch);
      }
      assert Flatten(b.bins[lo..]) == b.bins[lo] + f by {
        assert b.bins[lo..][0] == b.bins[lo];
        assert b.bins[lo..][1..] == b.bins[lo + 1..];
      }
      assert f + b.overflow == Buckets(elems, patterns, lo + 1, isMatch) by {
        FlattenClaims(patterns, elems, lo + 1, isMatch);
      }
      Text.ConcatAssoc(w, f, b.overflow);
      BucketsUnfold(elems, patterns, lo, isMatch);
    } else {
      assert Flatten(b.bins[lo..]) == [] by {
        assert |b.bins[lo..]| == 0;
      }
      assert b.overflow == WithRank(elems, patterns, lo, isMatch) by {
        BinClaims(patterns, elems, isMatch);
      }
      assert Buckets(elems, patterns, lo + 1, isMatch) == [];
      BucketsUnfold(elems, patterns, lo, isMatch);
    }
  }

  /**
   * With `duplicate == true`, the bins followed by the overflow are the
   * input stably sorted by rank (index of the first matching pattern,
   * unmatched last), and hence a permutation of the input.
   */
  lemma BinClaimsIsStableSort<T, R>(patterns: seq<R>, elems: seq<T>, isMatch: (T, R) -> bool)
    ensures Flatten(Bin(patterns, elems, true, isMatch).bins) + Bin(patterns, elems, true, isMatch).overflow
            == SortByRank(elems, patterns, isMatch)
    ensures multiset(Flatten(Bin(patterns, elems, true, isMatch).bins) + Bin(patterns, elems, true, isMatch).overflow)
            == multiset(elems)
  {
    FlattenClaims(patterns, elems, 0, isMatch);
    assert Bin(patterns, elems, true, isMatch).bins[0..] == Bin(patterns, elems, true, isMatch).bins;
    BucketsAreSorted(elems, patterns, isMatch);
  }

  // ---- sort as written ----

  lemma {:induction false} MatchPairsSplit<T, R>(elems: seq<T>, patterns: seq<R>, isMatch: (T, R) -> bool)
    requires |patterns| > 0
    ensures MatchPairs(elems, patterns, isMatch)
            == |Matching(elems, patterns[0], isMatch)| + MatchPairs(elems, patterns[1..], isMatch)
    decreases |elems|
  {
    if |elems| > 0 {
      MatchPairsSplit(elems[1..], patterns, isMatch);
    }
  }

  /** The match lists together hold one entry per matching (element, pattern) pair. */
  lemma {:induction false} MatchListsLength<T, R>(elems: seq<T>, patterns: seq<R>, isMatch: (T, R) -> bool)
    ensures |Flatten(MatchLists(elems, patterns, isMatch))| == MatchPairs(elems, patterns, isMatch)
    decreases |patterns|
  {
    if |patterns| == 0 {
      MatchPairsNone(elems, patterns, isMatch);
    } else {
      MatchListsLength(elems, patterns[1..], isMatch);
      MatchPairsSplit(elems, patterns, isMatch);
      var ms := MatchLists(elems, patterns, isMatch);
      assert ms[1..] == MatchLists(elems, patterns[1..], isMatch);
    }
  }

  lemma {:induction false} MatchPairsNone<T, R>(elems: seq<T>, patterns: seq<R>, isMatch: (T, R) -> bool)
    requires |patterns| == 0
    ensures MatchPairs(elems, patterns, isMatch) == 0
    decreases |elems|
  {
    if |elems| > 0 {
      MatchPairsNone(elems[1..], patterns, isMatch);
    }
  }

  /** `sort` reserves exactly the room its result fills: bin lengths plus overflow length. */
  lemma SortLength<T, R>(patterns: seq<R>, elems: seq<T>, isMatch: (T, R) -> bool)
    ensures |Sort(patterns, elems, isMatch)|
            == SumLengths(Bin(patterns, elems, false, isMatch).bins) + |Bin(patterns, elems, false, isMatch).overflow|
  {
  }

  /**
   * The as-written `sort` repeats matched elements: one pattern `p` that the
   * one element `x` matches gives `[x, x]`, where the claiming sort gives `[x]`.
   */
  lemma SortRepeatsMatches<T, R>(p: R, x: T, isMatch: (T, R) -> bool)
    requires isMatch(x, p)
    ensures Sort([p], [x], isMatch) == [x, x]
    ensures SortClaimed([p], [x], isMatch) == [x]
  {
    assert Matching([x], p, isMatch) == [x] by {
      assert [x][1..] == [];
    }
    assert MatchLists([x], [p], isMatch) == [[x]] by {
      assert [p][1..] == [];
    }
    assert Flatten([[x]]) == [x] by {
      assert [[x]][1..] == [];
    }
    assert Rank([p], x, isMatch) == 0;
    assert SortByRank([x], [p], isMatch) == [x] by {
      assert [x][1..] == [];
    }
  }
}

=== FILE: text.dfy ===
/**
 * String helpers the Rust standard library provides to the modelled code:
 * `str::split` on a single character, `{}` / `{:03}` decimal formatting of
 * unsigned integers, and `str::parse::<usize>`.
 */
module Text {
  import opened Wrappers

  /** Number of occurrences of `c` in `s`. */
  function Count(s: string, c: char): (n: nat)
    ensures n <= |s|
    ensures n == 0 <==> c !in s
  {
    if |s| == 0 then 0
    else (if s[0] == c then 1 else 0) + Count(s[1..], c)
  }

  lemma {:induction false} CountAppend(a: string, b: string, c: char)
    ensures Count(a + b, c) == Count(a, c) + Count(b, c)
    decreases |a|
  {
    if |a| == 0 {
      assert a + b == b;
    } else {
      assert (a + b)[1..] == a[1..] + b;
      CountAppend(a[1..], b, c);
    }
  }

  /** Position of the first `c` in `s`, if there is one. */
  function IndexOf(s: string, c: char): (r: Option<nat>)
    ensures r.None? <==> c !in s
    ensures r.Some? ==> r.value < |s| && s[r.value] == c && c !in s[..r.value]
  {
    if |s| == 0 then None
    else if s[0] == c then Some(0)
    else match IndexOf(s[1..], c)
      case None => None
      case Some(i) =>
        assert s[..i + 1] == [s[0]] + s[1..][..i];
        Some(i + 1)
  }

  /**
   * `s.split(c).collect::<Vec<_>>()`: the pieces between occurrences of `c`,
   * always at least one piece (the empty string splits into `[""]`).
   */
  function Split(s: string, c: char): (parts: seq<string>)
    ensures |parts| >= 1
    decreases |s|
  {
    match IndexOf(s, c)
    case None => [s]
    case Some(i) => [s[..i]] + Split(s[i + 1..], c)
  }

  /** There is one more piece than there are separators, and no piece holds one. */
  lemma SplitPieces(s: string, c: char)
    ensures |Split(s, c)| == Count(s, c) + 1
    ensures forall i :: 0 <= i < |Split(s, c)| ==> c !in Split(s, c)[i]
  {
    SplitCount(s, c);
    SplitFree(s, c);
  }

  /** There is one more piece than there are separators. */
  lemma {:induction false} SplitCount(s: string, c: char)
    ensures |Split(s, c)| == Count(s, c) + 1
    decreases |s|
  {
    match IndexOf(s, c)
    case None =>
    case Some(i) =>
      var head, tail := s[..i], s[i + 1..];
      assert s == head + [c] + tail;
      CountCons(head, tail, c);
      SplitCons(head, tail, c);
      SplitCount(tail, c);
  }

  /** A separator after a piece free of it adds one to the count. */
  lemma CountCons(a: string, b: string, c: char)
    requires c !in a
    ensures Count(a + [c] + b, c) == Count(b, c) + 1
  {
    assert Count([c] + b, c) == 1 + Count(b, c) by {
      assert ([c] + b)[1..] == b;
    }
    assert a + [c] + b == a + ([c] + b);
    CountAppend(a, [c] + b, c);
  }

  /** No piece holds the separator. */
  lemma {:induction false} SplitFree(s: string, c: char)
    ensures forall i :: 0 <= i < |Split(s, c)| ==> c !in Split(s, c)[i]
    decreases |s|
  {
    match IndexOf(s, c)
    case None =>
    case Some(i) =>
      var head, tail := s[..i], s[i + 1..];
      var rest := Split(tail, c);
      var parts := Split(s, c);
      assert parts == [head] + rest;
      SplitFree(tail, c);
      forall j | 0 <= j < |parts|
        ensures c !in parts[j]
      {
        if j > 0 {
          assert parts[j] == rest[j - 1];
        }
      }
  }

  /** Concatenates `parts` with `c` between consecutive pieces (`parts.join(c)`). */
  function Join(parts: seq<string>, c: char): string
    requires |parts| >= 1
  {
    if |parts| == 1 then parts[0] else parts[0] + [c] + Join(parts[1..], c)
  }

  /** Joining the pieces of a split gives the original string back. */
  lemma {:induction false} JoinSplit(s: string, c: char)
    ensures Join(Split(s, c), c) == s
    decreases |s|
  {
    match IndexOf(s, c)
    case None =>
    case Some(i) =>
      var head, tail := s[..i], s[i + 1..];
      var parts := Split(s, c);
      var rest := Split(tail, c);
      assert parts == [head] + rest;
      assert parts[0] == head && parts[1..] == rest;
      assert Join(rest, c) == tail by {
        JoinSplit(tail, c);
      }
      assert Join(parts, c) == head + [c] + tail;
      assert s == head + [c] + tail;
  }

  /** Splitting a join of pieces free of `c` gives the pieces back. */
  lemma {:induction false} SplitJoin(parts: seq<string>, c: char)
    requires |parts| >= 1
    requires forall i :: 0 <= i < |parts| ==> c !in parts[i]
    ensures Split(Join(parts, c), c) == parts
    decreases |parts|
  {
    if |parts| == 1 {
      SplitNone(parts[0], c);
    } else {
      var tail := Join(parts[1..], c);
      assert Split(tail, c) == parts[1..] by {
        SplitJoin(parts[1..], c);
      }
      assert Split(parts[0] + [c] + tail, c) == [parts[0]] + Split(tail, c) by {
        SplitCons(parts[0], tail, c);
      }
      assert parts == [parts[0]] + parts[1..];
    }
  }

  lemma IndexOfAt(s: string, c: char, i: nat)
    requires i < |s| && s[i] == c && c !in s[..i]
    ensures IndexOf(s, c) == Some(i)
  {
    var r := IndexOf(s, c);
    assert s[i] in s;
    assert forall j :: 0 <= j < i ==> s[..i][j] == s[j];
    assert forall j :: 0 <= j < r.value ==> s[..r.value][j] == s[j];
  }

  /** A string free of `c` is a single piece. */
  lemma SplitNone(s: string, c: char)
    requires c !in s
    ensures Split(s, c) == [s]
  {
  }

  /** A first piece free of `c` comes off the front. */
  lemma SplitCons(a: string, b: string, c: char)
    requires c !in a
    ensures Split(a + [c] + b, c) == [a] + Split(b, c)
  {
    var s := a + [c] + b;
    assert s[..|a|] == a;
    IndexOfAt(s, c, |a|);
    assert s[|a| + 1..] == b;
  }

  /** Splitting two strings joined by `c` splits each of them. */
  lemma {:induction false} SplitAppend(a: string, b: string, c: char)
    ensures Split(a + [c] + b, c) == Split(a, c) + Split(b, c)
    decreases |a|
  {
    var s := a + [c] + b;
    match IndexOf(a, c)
    case None =>
      SplitCons(a, b, c);
    case Some(i) =>
      var a1, a2 := a[..i], a[i + 1..];
      assert Split(s, c) == [a1] + Split(a2 + [c] + b, c) by {
        assert s[..i] == a1;
        IndexOfAt(s, c, i);
        assert s[i + 1..] == a2 + [c] + b;
      }
      assert Split(a, c) == [a1] + Split(a2, c);
      SplitAppend(a2, b, c);
      ConcatAssoc([a1], Split(a2, c), Split(b, c));
  }

  /** Sequence concatenation is associative. */
  lemma ConcatAssoc<T>(x: seq<T>, y: seq<T>, z: seq<T>)
    ensures (x + y) + z == x + (y + z)
  {
  }

  /** Whatever precedes the last `c`, the last piece is the text after it. */
  lemma SplitLast(a: string, b: string, c: char)
    requires c !in b
    ensures var parts := Split(a + [c] + b, c); parts[|parts| - 1] == b
  {
    SplitAppend(a, b, c);
    SplitNone(b, c);
  }

  // ---- decimal digits ----

  predicate IsDigit(ch: char) {
    '0' <= ch <= '9'
  }

  predicate AllDigits(s: string) {
    forall i :: 0 <= i < |s| ==> IsDigit(s[i])
  }

  function DigitChar(d: nat): (ch: char)
    requires d < 10
    ensures IsDigit(ch)
  {
    (('0' as int) + d) as char
  }

  function DigitValue(ch: char): (d: nat)
    requires IsDigit(ch)
    ensures d < 10 && DigitChar(d) == ch
  {
    (ch as int) - ('0' as int)
  }

  /** The decimal value of a string of ASCII digits (leading zeros allowed). */
  function DigitsValue(s: string): nat
    requires AllDigits(s)
  {
    if |s| == 0 then 0 else DigitsValue(s[..|s| - 1]) * 10 + DigitValue(s[|s| - 1])
  }

  /** `format!("{}", n)` for an unsigned integer: no sign, no leading zeros. */
  function Decimal(n: nat): (r: string)
    ensures |r| >= 1 && AllDigits(r)
    ensures r[0] == '0' ==> n == 0
    ensures n < 10 <==> |r| == 1
  {
    if n < 10 then [DigitChar(n)] else Decimal(n / 10) + [DigitChar(n % 10)]
  }

  /** Reading the digits `Decimal(n)` writes gives `n` back. */
  lemma {:induction false} DecimalValue(n: nat)
    ensures DigitsValue(Decimal(n)) == n
  {
    if n >= 10 {
      var r := Decimal(n);
      assert r[..|r| - 1] == Decimal(n / 10);
      DecimalValue(n / 10);
    }
  }

  /** `n` has at least three decimal digits exactly when it is at least 100. */
  lemma {:induction false} DecimalLength(n: nat)
    ensures n < 1000 ==> |Decimal(n)| <= 3
    ensures n >= 1000 ==> |Decimal(n)| >= 4
  {
    if n >= 10 {
      DecimalLength(n / 10);
    }
  }

  function Zeros(k: nat): (z: string)
    ensures |z| == k && AllDigits(z)
    ensures forall i :: 0 <= i < k ==> z[i] == '0'
  {
    if k == 0 then [] else ['0'] + Zeros(k - 1)
  }

  /** Leading zeros do not change a digit string's value. */
  lemma {:induction false} ZerosValue(k: nat, s: string)
    requires AllDigits(s)
    ensures DigitsValue(Zeros(k) + s) == DigitsValue(s)
    decreases |s|
  {
    var t := Zeros(k) + s;
    if |s| == 0 {
      assert t == Zeros(k);
      ZerosOnly(k);
    } else {
      assert t[..|t| - 1] == Zeros(k) + s[..|s| - 1];
      ZerosValue(k, s[..|s| - 1]);
    }
  }

  lemma {:induction false} ZerosOnly(k: nat)
    ensures DigitsValue(Zeros(k)) == 0
  {
    if k > 0 {
      assert Zeros(k)[..k - 1] == Zeros(k - 1);
      ZerosOnly(k - 1);
    }
  }

  /**
   * `format!("{:0w}", n)` for an unsigned integer: the decimal form, padded
   * on the left with zeros to at least `w` characters, never truncated.
   */
  function ZeroPad(n: nat, w: nat): (r: string)
    ensures AllDigits(r)
    ensures |r| == if |Decimal(n)| < w then w else |Decimal(n)|
  {
    var d := Decimal(n);
    if |d| < w then Zeros(w - |d|) + d else d
  }

  /** Reading a zero-padded number gives the number back. */
  lemma ZeroPadValue(n: nat, w: nat)
    ensures DigitsValue(ZeroPad(n, w)) == n
  {
    var d := Decimal(n);
    assert DigitsValue(d) == n by {
      DecimalValue(n);
    }
    if |d| < w {
      assert ZeroPad(n, w) == Zeros(w - |d|) + d;
      ZerosValue(w - |d|, d);
    } else {
      assert ZeroPad(n, w) == d;
    }
  }

  // ---- str::parse::<usize> ----

  /** The largest `usize` on the 64-bit targets the tools are built for. */
  const UsizeMax: nat := 0xFFFF_FFFF_FFFF_FFFF

  /** `s` without one optional leading `+`: the digits `usize::from_str` reads. */
  function WithoutPlus(s: string): (d: string)
    ensures |d| <= |s| <= |d| + 1 && d == s[|s| - |d|..]
    ensures |d| < |s| <==> |s| > 0 && s[0] == '+'
  {
    if |s| > 0 && s[0] == '+' then s[1..] else s
  }

  /**
   * `s.parse::<usize>()`: an optional `+` followed by one or more ASCII
   * digits whose value fits in a `usize`; anything else (including the
   * empty string and a lone `+`) is an error.
   */
  function ParseUsize(s: string): (r: Option<nat>)
    ensures r.Some? <==> var d := WithoutPlus(s);
                         |d| > 0 && AllDigits(d) && DigitsValue(d) <= UsizeMax
    ensures r.Some? ==> r.value == DigitsValue(WithoutPlus(s))
  {
    var digits := WithoutPlus(s);
    if |digits| == 0 || !AllDigits(digits) then None
    else
      var v := DigitsValue(digits);
      if v > UsizeMax then None
      else Some(v)
  }

  /**
   * What an accepted text looks like: non-empty, every character a digit
   * except an optional leading `+`, and the value in range.
   */
  lemma ParseUsizeShape(s: string)
    ensures |s| == 0 ==> ParseUsize(s).None?
    ensures ParseUsize(s).Some? ==> ParseUsize(s).value <= UsizeMax
    ensures ParseUsize(s).Some? ==>
              forall i :: 0 <= i < |s| ==> IsDigit(s[i]) || (i == 0 && s[i] == '+')
  {
    if ParseUsize(s).Some? {
      var d := WithoutPlus(s);
      forall i | 0 <= i < |s|
        ensures IsDigit(s[i]) || (i == 0 && s[i] == '+')
      {
        if i >= |s| - |d| {
          assert s[i] == d[i - (|s| - |d|)];
        }
      }
    }
  }

  /** Every `usize` written in decimal parses back to itself. */
  lemma ParseDecimal(n: nat)
    requires n <= UsizeMax
    ensures ParseUsize(Decimal(n)) == Some(n)
  {
    DecimalValue(n);
  }
}

=== FILE: wrappers.dfy ===
/** Option and Result, the two shapes the Rust code returns everywhere. */
module Wrappers {

  /** Rust's `Option<T>`. */
  datatype Option<+T> = None | Some(value: T)

  /** Rust's `Result<T, E>`; the configuration parsers use `E = ()`. */
  datatype Result<+T, +E> = Ok(value: T) | Err(error: E)
}
